=== FILE: README.md ===
# destigmatizer, modelled in Dafny

This project models the deterministic logic of the destigmatizer / reframe
toolkit. Every decision in that toolkit is wrapped around a call to a
large language model. The model covers:

- the pipe-and-filter engine `TextPipeline`;
- the four filter adapters;
- the classify-then-rewrite façade with its short `"d"`/`"nd"` and
  `"s, …"`/`"ns"` codes;
- the three ways the stigma explanation is taken apart for the rewriter;
- the MTLD lexical-diversity measure, and the punctuation,
  passive-voice and sentence-length parts of the style analysis;
- the retry loops of the classifiers, rewriters, emotion detector and
  client wrapper;
- the rate-limit counters of the batch-labelling scripts;
- the configuration helpers: the default-model table, API-key lookup,
  key-prefix inference, client identification and exponential backoff.

The language model is an oracle. One run of an operation is a script
`seq<Reply>`: the k-th completion call receives `script[k]`, which is
`Success(text)` or `Failure(error)`, and calls beyond the end of the script
fail. Call counts, sentinels and counter updates can therefore be stated
exactly. The destigmatizer's own classifier, analyzer and rewriter classes
are not part of this model. The filters reach them through a `Services`
record of functions, and the façade takes one such record per pass, so a
model that answers differently on a later pass is covered.

Modules (one per source concern):

| file | module | models |
|---|---|---|
| base.dfy | Base | `Option`, `Result`, Python error kinds, truthiness of an optional string |
| strings.dfy | Strings | ASCII `lower`, `strip`, `find`, `split`, `join`, `startswith`, `in` on `seq<char>` |
| oracle.dfy | Oracle | replies, requests, few-shot message lists, the shared `while retries > 0` loop |
| pipeline.dfy | Pipeline | `TextPipeline.add_filter` / `process` |
| filters.dfy | Filters | the four filter adapters |
| facade.dfy | Facade | `destigmatizer/core.py` |
| explanation.dfy | Explanation | `_parse_explanation`, the `split`-based parsing with and without fallback |
| rewriter.dfy | Rewriter | `DestigmatizingRewriter.rewrite` |
| classifiers.dfy | Classifiers | the stand-alone drug and stigma classifiers |
| emotion.dfy | Emotion | both copies of `get_emotion` |
| wrapper.dfy | Wrapper | `OpenAIWrapper.chat_completion_with_retry` |
| reframe.dfy | Reframe | `reframe/reframe.py`: `initialize`, `create_completion`, classifiers, `rewrite_to_destigma`, `get_emotion` |
| mtld.dfy | Mtld | `mtld_LD` / `mtld_calc` |
| style.dfy | Style | punctuation summary, passive-voice flag, sentence statistics of `analyze_text_llm` |
| config.dfy | Config | `reframe/utils.py` |
| batch.dfy | Batch | `task1.py`, `task2.py`, `task3.py`, `task3_C.py` |

Behaviour of the code that the model keeps and that is easy to miss:

- The pipeline runs every registered filter. The only gating is inside the
  rewrite filter and in the façade's early returns.
- The façade's short codes are lower-case (`"d"`, `"nd"`, `"s, …"`, `"ns"`).
- The stigma filter counts any label starting with lower-case `s` as
  stigmatizing. That includes the classifiers' fallback `"skipped"`.
- A closed rewrite gate returns the text with no metadata.
- The `split`-based parsers of `reframe.py` and `task3_C.py` raise
  `IndexError` on a missing marker. Only `task3.py` keeps the explanation
  as it was.
- In the documented example, the labeling part of
  "Labeling: Uses the term 'junkies,' a derogatory label" is cut at the comma
  inside the quotes. The result is `uses the term 'junkies` (lower-cased, by
  the rewriter class) or `Uses the term 'junkies` (split-based).
- The stand-alone drug classifier's docstring
  (src/reframe/classifiers/drug_classifier.py:18-21) promises a `ValueError`
  for a missing client and upper-case labels. The code raises nothing: the
  failed attribute lookup is caught like any other failure, so the answer is
  `"skipped"`. Labels come back lower-cased.

## Model

| member | source | states |
|---|---|---|
| Pipeline.AddFilter | src/destigmatizer/pipeline.py:24-36 | the new stage is appended at the end and every earlier stage keeps its position |
| Pipeline.Initial | src/destigmatizer/pipeline.py:48-52 | a run starts with original = processed = input and empty metadata |
| Pipeline.Step | src/destigmatizer/pipeline.py:54-73 | one filter call keeps the original text; the working text becomes the output's text when there is one; metadata keys are the old keys plus the patch's, patch values win, and every other key keeps its value |
| Pipeline.RunFrom | src/destigmatizer/pipeline.py:54-75 | the original text never changes and no metadata key is ever removed |
| Pipeline.Process | src/destigmatizer/pipeline.py:38-75 | the result's original text is the input |
| Pipeline.TraceIsOrderedRun | src/destigmatizer/pipeline.py:54-62 | filters run in registration order, each on the record its predecessor left, and the result is the last record |
| Pipeline.RunAppend | src/destigmatizer/pipeline.py:54-75 | running `a + b` is running `b` from where `a` stopped |
| Pipeline.EmptyPipeline | src/destigmatizer/pipeline.py:48-75 | with no filters the result is (text, text, {}) |
| Pipeline.NonDictOutputs | src/destigmatizer/pipeline.py:65-73 | an output that is neither a dict nor a string changes nothing; a plain string replaces only the working text |
| Pipeline.TwoStagesAccumulate | src/destigmatizer/pipeline.py:70 | after two filters every key either wrote is present, the later filter wins a collision, and the earlier value survives otherwise |
| Filters.ExplanationOf | src/destigmatizer/filters.py:52 | for a stigmatizing label containing ", " the explanation is exactly what follows the first ", "; otherwise it is the whole label |
| Filters.DrugFilter | src/destigmatizer/filters.py:6-30 | text passes through; only `is_drug_related` is written, true iff the label lower-cases to "d" |
| Filters.IsDrugLabel | src/destigmatizer/filters.py:28 | a label is drug-related iff it is exactly "d" or "D" |
| Filters.DrugLabels | src/destigmatizer/filters.py:28 | "d" and "D" are drug-related; "nd", "ND", "skipped" and "d." are not |
| Filters.StigmaFilter | src/destigmatizer/filters.py:32-60 | text passes through; exactly `is_stigmatizing` (label starts with lower-case "s") and `stigma_explanation` are written |
| Filters.IsStigmaLabel | src/destigmatizer/filters.py:51 | a label is stigmatizing iff it is non-empty and its first character is lower-case "s" |
| Filters.SkippedIsStigmatizing | src/destigmatizer/filters.py:51-52 | the fallback "skipped" counts as stigmatizing and is its own explanation; "ns" and "S, …" do not count |
| Filters.StyleFilter | src/destigmatizer/filters.py:62-89 | text passes through; only `style_analysis` is written |
| Filters.RewriteFilter | src/destigmatizer/filters.py:91-128 | a closed gate returns the text alone with no metadata; an open gate returns the rewriter's answer for the stored explanation (default "") and rendered style (default {}) and sets `was_rewritten` |
| Facade.PipelinesBuilt | src/destigmatizer/core.py:51-88 | the successive `add_filter` calls build [drug], [drug, stigma] and [drug, stigma, style, rewrite] |
| Facade.PassesGrow | src/destigmatizer/core.py:51-88 | each pass's filter list strictly extends the previous one |
| Facade.AnalyzeAndRewrite | src/destigmatizer/core.py:30-93 | one to three passes are run and they are the first passes of [drug], [drug, stigma], [drug, stigma, style, rewrite] |
| Facade.WorkflowPassesGrow | src/destigmatizer/core.py:51-88 | every workflow starts with the drug filter alone and its filter list only grows |
| Facade.DrugPass | src/destigmatizer/core.py:51-57 | the drug-only pass keeps the text and records exactly the drug verdict |
| Facade.DrugStigmaPass | src/destigmatizer/core.py:69-72 | the stigma classifier of the second pass sees the original text, and the pass records its verdict |
| Facade.StepRewrite | src/destigmatizer/filters.py:108-128 | one rewrite step leaves a record with a closed gate unchanged and otherwise replaces its text with the rewriter's answer |
| Facade.BeforeRewrite | src/destigmatizer/core.py:83-91 | the rewrite filter of the full pass receives the original text, this pass's verdict and explanation, and its style analysis |
| Facade.FullPass | src/destigmatizer/core.py:83-93 | the full pass rewrites exactly when its own stigma classifier reports stigma |
| Facade.AnalyzeAndRewriteResult | src/destigmatizer/core.py:57-93 | the input comes back when the first pass finds no drug content or the second finds no stigma, after one or two passes; otherwise the third pass's text after three passes |
| Facade.AnalyzeAndRewriteSteady | src/destigmatizer/core.py:30-93 | with collaborators that answer consistently, exactly drug-related stigmatizing text is rewritten |
| Facade.ClassifyIfDrug | src/destigmatizer/core.py:96-102 | the code is "d" or "nd", and "d" iff the drug label counts as drug-related |
| Facade.StigmaPass | src/destigmatizer/core.py:106-110 | the stigma-only pass records the verdict and the explanation |
| Facade.ClassifyIfStigma | src/destigmatizer/core.py:104-111 | the code is "s, " + explanation for a stigmatizing label and "ns" otherwise |
| Facade.StigmaCodes | src/destigmatizer/core.py:104-111 | a label already shaped "s, e" comes back unchanged, and "skipped" comes back as "s, skipped" |
| Facade.AnalyzeTextLlm | src/destigmatizer/core.py:113-118 | the result is the style analysis the analyzer produced |
| Facade.RewriteToDestigma | src/destigmatizer/core.py:120-137 | the text always comes back unchanged, because the only filter sees empty metadata |
| Facade.Initialize | src/destigmatizer/core.py:26-28 | a supplied client is returned as it is; otherwise the built one |
| Oracle.FewShot | src/reframe/classifiers/drug_classifier.py:73-157 | instructions first, the post last, user and system alternating in between, 2n + 2 messages |
| Oracle.RetryLoop | src/reframe/utils/OpenAIWrapper.py:8-20 | at most `retries` calls, at least one when `retries` is positive; every call before the last failed; an answer is the last call's reply; no answer means the budget was used up on failures |
| Oracle.RetryLoopSucceedsIff | src/reframe/utils/OpenAIWrapper.py:8-20 | the loop answers iff some call within the budget succeeds |
| Oracle.FailOrFirstSuccess | src/reframe/utils/OpenAIWrapper.py:8-20 | within any budget either every call fails or there is a first success |
| Oracle.RetryOrFallback | src/reframe/utils/OpenAIWrapper.py:8-20 | exhaustion gives the fallback after the whole budget; a first success at call k gives its normalized text after k + 1 calls |
| Classifiers.Seen | src/reframe/classifiers/drug_classifier.py:72 | without a client every attempt fails |
| Classifiers.Classify | src/reframe/classifiers/drug_classifier.py:70-168 | same few-shot request at temperature 0 on every attempt; "skipped" after exhaustion; the first success lower-cased and stripped |
| Classifiers.ClassifyIfDrug | src/reframe/classifiers/drug_classifier.py:70-168 | 20 messages in the documented shape, temperature 0, at most `retries` calls, "skipped" or the first success normalized |
| Classifiers.ClassifyIfStigma | src/reframe/classifiers/stigma_classifier.py:76-183 | 22 messages in the same shape, temperature 0, at most `retries` calls, "skipped" or the first success normalized |
| Classifiers.ClassifyIfDrugDefaults | src/reframe/classifiers/drug_classifier.py:7 | with the defaults: no model, at most two attempts, "skipped" when both fail, the first reply normalized when it succeeds |
| Classifiers.ClassifyIfStigmaDefaults | src/reframe/classifiers/stigma_classifier.py:9 | with the defaults: model "gpt-4-turbo-2024-04-09", at most two attempts, "skipped" when both fail, the first reply normalized when it succeeds |
| Classifiers.MissingClientSkips | src/reframe/classifiers/drug_classifier.py:162-168 | a missing client gives "skipped" from both classifiers instead of an error |
| Classifiers.LabelsAreNormalized | src/reframe/classifiers/drug_classifier.py:160 | labels contain no upper-case letter |
| Emotion.FirstPassOnly | src/get_emotion.py:12-29 | no positive retries: no call and no value; otherwise exactly one call, giving the normalized reply or "skipped" |
| Emotion.GetEmotion | src/get_emotion.py:11-29 | request is [prompt, text] with the caller's model and temperature; at most one call, exactly one with positive retries; None without retries; the first reply normalized on success; "skipped" on the first failure; the copy in src/reframe/classifiers/get_emotion.py is identical |
| Emotion.GetEmotionDefaults | src/get_emotion.py:11 | with the defaults: model "gpt-4-turbo-2024-04-09", temperature 0, exactly one call, "skipped" when it fails |
| Emotion.RetriesBeyondOneUnused | src/get_emotion.py:24-29 | any positive `retries` behaves like 1 |
| Emotion.SecondReplyUnused | src/get_emotion.py:24-29 | a success after a failure is never reached |
| Wrapper.ChatCompletionWithRetry | src/reframe/utils/OpenAIWrapper.py:7-20 | the caller's messages and model at temperature 0; at most `retries` calls; "skipped" or the first success normalized |
| Wrapper.SkippedMeansFailureOrEcho | src/reframe/utils/OpenAIWrapper.py:15-20 | "skipped" means every attempt failed or the model itself answered "skipped" |
| Rewriter.Rewrite | src/reframe/rewriters.py:86-154 | system prompt for the step plus one user message `text;This post uses <part>;<style>`; mapped model, no temperature; "Error rewriting text" after exhaustion, else the first success normalized |
| Rewriter.UserMessageFields | src/reframe/rewriters.py:136-143 | the user message splits back at ";" into its three fields when none contains ";" |
| Rewriter.NoAttempts | src/reframe/rewriters.py:138-154 | no positive retries: no call and "Error rewriting text" |
| Explanation.ValueStart | src/reframe/rewriters.py:54 | the value starts right after the first occurrence of the key |
| Explanation.ValueEnd | src/reframe/rewriters.py:55-57 | the value ends at the next comma, or at the end |
| Explanation.Field | src/reframe/rewriters.py:53-58 | present iff the key occurs; then the stripped text after the first key up to the next comma, which contains no comma |
| Explanation.ParseExplanation | src/reframe/rewriters.py:40-84 | each of the four parts is extracted from the lower-cased explanation exactly as `Field` states |
| Explanation.CommaTruncates | src/reframe/rewriters.py:53-58 | a comma ends the labeling part; everything after it is dropped |
| Explanation.JunkiesLabeling | src/reframe/rewriters.py:53-58 | the documented example yields "uses the term 'junkies" |
| Explanation.FindRunsPastRepeatedKey | src/reframe/rewriters.py:53-58 | for any comma-free texts a and b, the labeling part of `Labeling:` + a + `Labeling:` + b (either key in any case) is the whole stripped, lower-cased remainder, second key included: a repeated key does not end the value, only a comma does |
| Explanation.LaterStepParts | src/reframe/rewriters.py:115-121 | the present later parts, titled, in the order stereotyping, separation, discrimination; empty iff none is present |
| Explanation.ExplanationPart | src/reframe/rewriters.py:106-123 | step 1: the labeling part or the lower-cased explanation; other steps: the later parts joined by "; " or the lower-cased explanation |
| Explanation.LaterStepAllParts | src/reframe/rewriters.py:114-123 | with all three later parts the joined text is the three titled parts in order |
| Explanation.SplitField | src/reframe/reframe.py:293 | defined iff the marker occurs; then the text between the first and second marker, up to the first comma |
| Explanation.SplitFieldUpToComma | src/reframe/reframe.py:293 | a comma-free value followed by a comma is extracted exactly |
| Explanation.SplitStopsAtRepeatedMarker | src/reframe/reframe.py:293 | for any marker, a comma-free piece followed by a second occurrence of the marker is extracted exactly: the second marker ends the piece |
| Explanation.SplitExplanation | src/reframe/reframe.py:290-300 | step 1 succeeds iff "Labeling: " occurs, other steps iff all three later markers occur; a failure is IndexError; the value is the labeling piece or the three pieces joined by ";"; src/task3_C.py:10-20 parses the same way |
| Explanation.SplitExplanationOrKeep | src/task3.py:23-39 | the split result when every marker the step needs occurs, the explanation unchanged otherwise |
| Explanation.JunkiesSplit | src/reframe/reframe.py:293 | the documented example yields "Uses the term 'junkies" |
| Reframe.Initialize | src/reframe/reframe.py:21-31 | a supplied client is returned with the type as given; no client and no key is ValueError; an OpenAI or Together client is built only for that type in any letter case; any other type is ValueError "Unsupported client type: " + type, and a missing type AttributeError |
| Reframe.InitializeSucceedsIff | src/reframe/reframe.py:21-31 | set-up succeeds iff a client is given, or a key and an "openai"/"together" type in any case |
| Reframe.InitializeIgnoresCase | src/reframe/reframe.py:24-27 | "OpenAI" and "TOGETHER" select their clients and are returned as spelt |
| Reframe.CompletionModel | src/reframe/reframe.py:52-53 | a non-empty caller model wins; otherwise "gpt-4o" iff the type is exactly "openai", else the Llama id |
| Reframe.DefaultModelIsCaseSensitive | src/reframe/reframe.py:53 | "OpenAI" gets the Llama model |
| Reframe.CreateCompletion | src/reframe/reframe.py:50-62 | a success passes through; a failure is re-raised with the "Error creating completion: " prefix |
| Reframe.Wrapped | src/reframe/reframe.py:50-62 | each reply is passed through `create_completion` |
| Reframe.WrappedKeepsOutcomes | src/reframe/reframe.py:61-62 | re-raising keeps which attempts fail and the text of each success |
| Reframe.RetriedRequest | src/reframe/reframe.py:128-164 | the same request on every attempt; at most `retries` calls; "skipped" after exhaustion; the first success normalized |
| Reframe.FewShotClassify | src/reframe/reframe.py:128-164 | the few-shot request with the completion model and temperature 0, retried as above |
| Reframe.ClassifyIfDrug | src/reframe/reframe.py:128-164 | 20 messages, instructions first and post last, "skipped" or the first success normalized |
| Reframe.ClassifyIfStigma | src/reframe/reframe.py:241-279 | 22 messages, instructions first and post last, "skipped" or the first success normalized |
| Reframe.RewriteToDestigma | src/reframe/reframe.py:287-337 | IndexError before any call iff a needed marker is missing; otherwise one user message `post;This post <extracted>;<style>` retried like a classifier: "skipped" after exactly `retries` attempts, or the first success normalized after k + 1 |
| Reframe.StyledUserMessage | src/reframe/reframe.py:313-325 | the user message is the post, ";", "This post " and the explanation, then ";" and the style instruction at the end |
| Reframe.GetEmotion | src/reframe/reframe.py:420-439 | at most one call; None without retries; the first reply normalized after exactly one call on success; "skipped" after exactly one call on the first failure; the completion model and caller temperature |
| Mtld.ThresholdIsRatio | src/reframe/classifiers/get_style.py:40-41 | the ratio test `types/(total+1) <= 0.72` is exactly `25*types <= 18*(total+1)` |
| Mtld.FeedClosesIff | src/reframe/classifiers/get_style.py:39-46 | a token closes a factor iff the segment's ratio including it is at most 0.72; closing empties the segment, otherwise the token joins it |
| Mtld.Feed | src/reframe/classifiers/get_style.py:38-46 | a token either closes a factor (one more factor, empty segment) or joins the segment (one more token, its type added); nothing else |
| Mtld.ScanAll | src/reframe/classifiers/get_style.py:36-46 | after the loop, neither the factor count nor the open segment's length exceeds the number of tokens |
| Mtld.Fraction | src/reframe/classifiers/get_style.py:47 | the fractional term lies in (0, 1] and is 1 iff the open segment is the whole list |
| Mtld.MtldCalc | src/reframe/classifiers/get_style.py:35-48 | 0 for no tokens; at least the number of full factors, and at most one more; exactly that number when no segment is open |
| Mtld.MtldLD | src/reframe/classifiers/get_style.py:34-53 | 0 for an empty list; src/reframe/reframe.py:347-366 is the same measure |
| Mtld.ScanSane | src/reframe/classifiers/get_style.py:39-46 | the open segment has no more types than tokens and every closed factor used at least two tokens |
| Mtld.FactorsBound | src/reframe/classifiers/get_style.py:40-41 | at most half the tokens' worth of full factors |
| Mtld.DistinctNeverCloses | src/reframe/classifiers/get_style.py:38-46 | with no repeated token no factor closes and the whole list stays one open segment |
| Mtld.DistinctPassIsOne | src/reframe/classifiers/get_style.py:35-48 | one or more distinct tokens score exactly 1 in one pass |
| Mtld.DistinctScoresOne | src/reframe/classifiers/get_style.py:34-53 | one or more distinct tokens score exactly 1 |
| Mtld.ReversalInvariant | src/reframe/classifiers/get_style.py:50-53 | reversing the token list does not change the score |
| Mtld.RepeatClosesFactor | src/reframe/classifiers/get_style.py:39-46 | "w w" closes a factor at its second token and scores 1 |
| Style.Present | src/reframe/classifiers/get_style.py:67-68 | exactly the characters that occur in the text, in the candidate list's order |
| Style.PresentPunctuation | src/reframe/classifiers/get_style.py:67-68 | exactly the `string.punctuation` characters occurring in the text, in `string.punctuation` order |
| Style.NoPunctuationUsage | src/reframe/classifiers/get_style.py:68 | a text without punctuation still gets the sentence, with an empty list |
| Style.PunctuationUsage | src/reframe/classifiers/get_style.py:96-99 | besides the fixed "moderate, with … being most frequent" wording, the entry holds exactly the punctuation marks that occur in the text |
| Style.IsPassive | src/reframe/classifiers/get_style.py:71-77 | the flag is set iff some adjacent pair is a "was"/"were" word followed by a VBN tag (corrected check) |
| Style.CountPassive | src/reframe/classifiers/get_style.py:79 | at most one per sentence; 0 iff no sentence is passive |
| Style.PassiveUsage | src/reframe/classifiers/get_style.py:79-80 | "none" iff no sentence is passive, else "some" |
| Style.AsWrittenNeverPassive | src/reframe/classifiers/get_style.py:75 | as written, with Penn-style tags, the usage is always "none" |
| Style.PassiveCounterexample | src/reframe/classifiers/get_style.py:75 | "It was written." is "none" as written and "some" when corrected |
| Style.WordCount | src/reframe/classifiers/get_style.py:83 | at most the length; 0 iff the sentence is all whitespace |
| Style.Words | src/reframe/classifiers/get_style.py:83 | the reference whitespace `split()`: every piece is non-empty and contains no whitespace |
| Style.WordCountSplit | src/reframe/classifiers/get_style.py:83 | counts add up across a whitespace boundary |
| Style.WordCountIsSplit | src/reframe/classifiers/get_style.py:83 | the count is exactly the number of pieces of the whitespace split, i.e. `len(s.split())` |
| Style.WordCounts | src/reframe/classifiers/get_style.py:83 | one count per sentence, in order |
| Style.Mean | src/reframe/classifiers/get_style.py:86 | the average times the number of sentences is the total |
| Style.StatsBounds | src/reframe/classifiers/get_style.py:84-86 | the mean of counts within [lo, hi] lies within [lo, hi] |
| Style.Summarize | src/reframe/classifiers/get_style.py:84-86 | min and max are counts that bound every count, and min <= average <= max |
| Style.Stats | src/reframe/classifiers/get_style.py:83-86 | ValueError iff there are no sentences |
| Style.TagAll | src/reframe/classifiers/get_style.py:72-79 | one tagging per sentence, in order, each the tagger's result for that sentence |
| Style.AnalyzeText | src/reframe/classifiers/get_style.py:56-104 | ValueError iff no sentences; otherwise the punctuation summary, the passive usage of the sentences as tagged, the length statistics, the emotion and the lexical score |
| Config.DefaultModel | src/reframe/utils.py:58-64 | a model iff the lower-cased type is openai, together or claude, with the fixed ids |
| Config.DefaultModelIgnoresCase | src/reframe/utils.py:58-63 | the letter case of the type does not matter |
| Config.KeyName | src/reframe/utils.py:22-32 | a key name iff the lower-cased type is supported |
| Config.LoadApiKey | src/reframe/utils.py:9-45 | unsupported type gives None; a set environment variable wins; otherwise the file's entry |
| Config.UnsupportedTypeHasNoKey | src/reframe/utils.py:31-32 | an unsupported type gets no key whatever the environment and file hold |
| Config.DetectClientType | src/reframe/utils.py:67-95 | an environment key decides in the order OpenAI, Together, Anthropic; None iff no key is set in the environment and none in a readable file |
| Config.FirstSet | src/reframe/utils.py:75-93 | the reference search: None iff no provider's key is set, otherwise the type of a provider whose key is set |
| Config.DetectIsFirstSet | src/reframe/utils.py:67-95 | detection is the ordered provider search over the environment and, only when that finds nothing, over the file |
| Config.InferClientType | src/reframe/utils.py:152-158 | "sk-a…" is claude, other "sk-…" openai, anything else together |
| Config.PrefixOrder | src/reframe/utils.py:153-158 | "sk-abc" is guessed to be claude; the "sk-ant" test never decides anything |
| Config.GetApiKeyWithFallbacks | src/reframe/utils.py:134-174 | an explicit key is returned unchanged with its type given or guessed; then the given type's key with that type; then the detected type's key with the detected type; ValueError iff all three sources fail |
| Config.IdentifyClient | src/reframe/utils.py:177-205 | the attribute wins; otherwise the lower-cased class name decides in the order openai, together, anthropic/claude; otherwise `chat.completions` gives "openai" before `messages.create` gives "claude"; "unknown" iff nothing matches |
| Config.ClassNameBeforeMethods | src/reframe/utils.py:190-201 | the class name outranks the available methods |
| Config.Waits | src/reframe/utils.py:116-129 | the i-th wait is the initial wait times factor^i |
| Config.WaitsGrow | src/reframe/utils.py:128-129 | a sleep appends the current wait and multiplies it by the factor |
| Config.RetryWithBackoff | src/reframe/utils.py:98-131 | negative `max_retries` raises TypeError without a call; at most `max_retries + 1` calls; the first success after k sleeps; exhaustion re-raises the last error after exactly `max_retries` growing sleeps |
| Batch.Throttle | src/task1.py:105-115 | a counter at or over its limit is reset to 0, otherwise kept; the daily count is untouched |
| Batch.ThrottleIdempotent | src/task2.py:91-101 | checking twice changes nothing the second time |
| Batch.Charge | src/task2.py:203-209 | a success adds one request and the used tokens, and the tokens to the daily count when it is tracked |
| Batch.Attempts | src/task2.py:89-223 | at most `retries` calls; daily count never decreases; daily limit reached gives "skipped" with no call; exhaustion gives "skipped" with the checked counters |
| Batch.AttemptsFirstSuccess | src/task2.py:203-212 | a first success at call k gives its normalized text after k + 1 calls, and only it moves the counters |
| Batch.GetDrugPost | src/task1.py:103-223 | 20 messages at temperature 0; no daily count; "skipped" after exactly `retries` calls with only the checked counters; a success adds one request and the prompt and reply lengths |
| Batch.GetUtterance | src/task2.py:89-223 | 22 messages at temperature 0; the daily limit stops before any call, leaving the checked counters; below it, "skipped" after exactly `retries` calls with only the checked counters; a success charges all three counters |
| Batch.GetDestigma | src/task3.py:20-123 | one user message with the explanation narrowed or kept; the daily limit stops before any call, leaving the checked counters; below it, "skipped" after exactly `retries` calls with only the checked counters; a success charges all three counters |
| Batch.PostWithExplanation | src/task3.py:51-99 | the user message is the post, then ";", then "This post " and the explanation, at the end |
| Batch.MissingMarkerSendsWholeExplanation | src/task3.py:23-29 | without "Labeling: " the first step sends the whole explanation |
| Batch.GetDestigmaStyle | src/task3_C.py:7-64 | IndexError before any call iff a needed marker is missing; otherwise `post;This post <extracted>;<style>`, "skipped" after exactly `retries` attempts, or the first success normalized after k + 1 |
| Batch.SameNarrowing | src/task3.py:23-39 | the two rewriting scripts agree on the narrowed explanation whenever the style script does not raise |
| Batch.GetDrugPostDefaults | src/task1.py:18 | with the defaults: no model; "skipped" after exactly two calls with the checked counters; a first success at call 0 or 1 normalized after 1 or 2 calls |
| Batch.GetUtteranceDefaults | src/task2.py:20 | with the defaults: model "gpt-4-turbo-2024-04-09"; below the daily limit, "skipped" after exactly two calls with the checked counters, and a first success at call 0 or 1 normalized after 1 or 2 calls |
| Batch.GetDestigmaDefaults | src/task3.py:20 | with the defaults: model "gpt-4-turbo-2024-04-09"; below the daily limit, "skipped" after exactly two calls with the checked counters, and a first success at call 0 or 1 normalized after 1 or 2 calls |
| Batch.GetDestigmaStyleDefaults | src/task3_C.py:7 | with the defaults: IndexError exactly as without them; otherwise model "gpt-4-turbo-2024-04-09", "skipped" after exactly two attempts, and a first success at attempt 0 or 1 normalized after 1 or 2 |

## Left out

- Vendor SDKs and network calls are replaced by the reply script. This
  covers `client.chat.completions.create`, `get_client`,
  `detect_client_type` and `get_model_mapping`. The mapped model of the
  rewriter class is an input.
- Prompt bodies and few-shot example strings are left out. Messages record
  only their role and which prompt, example or literal text they carry.
- NLTK sentence splitting, word tokenisation and part-of-speech tagging are
  inputs. So is the `LexicalRichness` MTLD score that `analyze_text_llm`
  actually reports.
- The `.1f`/`.2f` formatting of the style record is left out; its numbers
  are kept as `real`.
- `time.sleep`, printing and verbose output are left out. Backoff waits are
  recorded as a sequence of reals. The batch scripts' minute-long pauses are
  modelled as the counter reset they end with.
- `threading.Lock` and interleavings between threads are left out. The
  batch counters are sequential state threaded from call to call.
- The environment and `secrets.json` are inputs: a map, and an optional
  map (`None` when the file is missing or not valid JSON).
- A reply whose content is `None` is not modelled: every success carries
  text. In the source such a reply raises a `TypeError` or
  `AttributeError`, and each call site's own `except` decides what follows:
  - the stand-alone classifiers, the rewriter class, the client wrapper,
    `task3_C.py` and the `reframe.py` classifiers and rewriter retry;
  - both copies of `get_emotion` and the one in `reframe.py` return
    `"skipped"` at once;
  - `task1.py`, `task2.py` and `task3.py` first count the request, then
    fail on `len(None)` before any tokens are charged, and retry.
- `lower()`, `strip()` and `split()` are ASCII-only here. Unicode case
  mapping and Unicode whitespace are not modelled.
- `src/reframe/core.py` is not part of this model. It only delegates to
  classes whose source is not available.
- The destigmatizer's `classifiers`, `analyzers`, `rewriters` and `clients`
  modules are not part of this model. They are the `Services` oracle.
- `OpenAIWrapper.__init__` is not part of this model. It refers to
  `openai`, which that file never imports.
- `create_pipeline` and `TextPipeline.__init__` are not modelled. The
  client and model they store are part of the `run` function given to
  `Process`.
- Pipeline.Process: Python passes each filter the live result record, so a
  filter could mutate the pipeline state in place. The model passes the
  record by value and applies only what the filter returns. This covers the
  library's four filters, which only read the record.
- Config.IdentifyClient: a `client_type` attribute that exists but holds
  `None` is returned as `None` by the source. The model's attribute is a
  present string or absent, so that case is not represented.
- Style.WordCount: its own contract gives bounds and the all-whitespace
  case. That it equals `len(s.split())` is the separate lemma
  Style.WordCountIsSplit.
- Pipeline.AddFilter: Python mutates the pipeline and returns the same
  object for chaining. The model returns a new value, so object identity
  is not stated.
- Reframe.CreateCompletion: the prefixed message uses the error's stored
  message for `str(e)`.
- Mtld.MtldLD: its own ensures states only the empty case. The distinct
  and reversal properties are separate lemmas (Mtld.DistinctScoresOne,
  Mtld.ReversalInvariant). The fractional term is modelled as the source
  writes it (open-segment length over the number of tokens), which is not
  the partial factor of the published MTLD definition.
- Demo, test and packaging files are not modelled.

## Findings

| source | as written | input that shows it | evidently intended | confidence | as-written member | corrected member |
|---|---|---|---|---|---|---|
| src/reframe/classifiers/get_style.py:75 | `tagged[i][1] in ['was', 'were']` compares the part-of-speech tag, which is never a lower-case word, so no sentence is ever passive | the sentence "It was written." tagged [("It","PRP"), ("was","VBD"), ("written","VBN"), (".",".")] gives "none" | compare the word `tagged[i][0]`, so that "was written" is passive and the usage is "some" | high, not executed | Style.AsWrittenNeverPassive | Style.IsPassive |

The same comparison appears in src/reframe/reframe.py:382. `Style.PassiveUsage`
and `Style.AnalyzeText` take a `corrected` flag. With `false` they model the
code as written, and with `true` the corrected check. `Style.PassiveCounterexample`
exhibits the input above under both.

=== FILE: base.dfy ===
/**
  Failure-carrying values shared by every module: `Option` for Python's
  `None`-or-value results, and `Result` for calls that raise one of the
  Python exceptions the modelled code can raise.
 */
module Base {

  datatype Option<+T> = None | Some(value: T) {
    function GetOr(default: T): T {
      match this
      case Some(v) => v
      case None => default
    }
  }

  /** The Python exceptions the modelled code raises or lets escape. */
  datatype Error =
    | ValueError(message: string)
    | IndexError
    | AttributeError
    | TypeError

  datatype Result<+T> = Ok(value: T) | Err(error: Error)

  /** Python truthiness of an optional string (`None` and `""` are falsy). */
  predicate TruthyText(s: Option<string>) {
    s.Some? && s.value != []
  }
}

=== FILE: batch.dfy ===
/**
  The batch-labelling scripts: drug labelling, stigma labelling and the two
  destigmatizing rewriters. The first three share module-level counters of
  requests, tokens per minute and (for the later two) tokens per day,
  checked before each attempt; they are modelled as a sequential state the
  caller threads from one call to the next. The counters' locks and the
  minute-long pauses are not modelled; a pause is the reset it ends with.
 */
module Batch {
  import opened Base
  import opened Strings
  import opened Oracle
  import opened Explanation

  datatype Counters = Counters(requests: nat, tokens: nat, daily: nat)

  /** Requests per period, tokens per minute and, when the script tracks
      it, tokens per day. */
  datatype Limits = Limits(rate: nat, tpm: nat, tpd: Option<nat>)

  const DrugPostLimits := Limits(10000, 1000000, None)
  const UtteranceLimits := Limits(10000, 800000, Some(80000000))
  const DestigmaLimits := Limits(600, 800000, Some(80000000))

  /** The default model of the stigma-labelling and rewriting scripts. */
  const ScriptModel := "gpt-4-turbo-2024-04-09"

  /** The checks at the start of an attempt: a counter at or over its limit
      is reset to 0 (after the pause); the daily count is never reset. */
  function Throttle(c: Counters, lim: Limits): (d: Counters)
    ensures d.daily == c.daily
    ensures d.requests == c.requests || d.requests == 0
    ensures d.tokens == c.tokens || d.tokens == 0
    ensures d.requests == c.requests <==> c.requests < lim.rate || c.requests == 0
    ensures d.tokens == c.tokens <==> c.tokens < lim.tpm || c.tokens == 0
    ensures lim.rate > 0 ==> d.requests < lim.rate
    ensures lim.tpm > 0 ==> d.tokens < lim.tpm
  {
    Counters(if c.requests >= lim.rate then 0 else c.requests,
             if c.tokens >= lim.tpm then 0 else c.tokens,
             c.daily)
  }

  /** Checking twice in a row changes nothing the second time, so a retry
      after a failure pauses only if the limits are zero. */
  lemma ThrottleIdempotent(c: Counters, lim: Limits)
    ensures Throttle(Throttle(c, lim), lim) == Throttle(c, lim)
  {
  }

  /** `daily_token_count >= tpd_limit`: the script gives up without a call. */
  predicate DailyExhausted(c: Counters, lim: Limits) {
    lim.tpd.Some? && c.daily >= lim.tpd.value
  }

  /** The bookkeeping after a successful call that used `used` tokens (the
      prompt's length plus the reply's). */
  function Charge(c: Counters, lim: Limits, used: nat): (d: Counters)
    ensures d.requests == c.requests + 1
    ensures d.tokens == c.tokens + used
    ensures d.daily == if lim.tpd.Some? then c.daily + used else c.daily
  {
    Counters(c.requests + 1, c.tokens + used, if lim.tpd.Some? then c.daily + used else c.daily)
  }

  /** The end of a script's retry loop: its answer, the counters afterwards
      and the number of completion calls made. */
  datatype Run = Run(answer: string, counters: Counters, calls: nat)

  /** `while retries > 0`, with the counter checks before each attempt.
      Every failure, rate-limit or other, costs one retry and leaves the
      counters as they were. */
  function Attempts(script: seq<Reply>, retries: int, c: Counters, lim: Limits, promptLen: nat): (r: Run)
    ensures r.calls <= Budget(retries)
    ensures r.counters.daily >= c.daily
    ensures retries <= 0 ==> r == Run("skipped", c, 0)
    ensures retries > 0 && DailyExhausted(c, lim) ==> r == Run("skipped", Throttle(c, lim), 0)
    ensures !DailyExhausted(c, lim) && AllFail(script, Budget(retries)) ==>
              r.answer == "skipped" && r.calls == Budget(retries)
              && r.counters == (if retries > 0 then Throttle(c, lim) else c)
    decreases retries
  {
    if retries <= 0 then Run("skipped", c, 0)
    else
      var t := Throttle(c, lim);
      if DailyExhausted(t, lim) then Run("skipped", t, 0)
      else match ReplyAt(script, 0)
        case Success(text) => Run(Normalize(text), Charge(t, lim, promptLen + |text|), 1)
        case Failure(_) =>
          var rest := Attempts(Later(script), retries - 1, t, lim, promptLen);
          ThrottleIdempotent(c, lim);
          assert AllFail(script, Budget(retries)) ==> AllFail(Later(script), Budget(retries - 1));
          Run(rest.answer, rest.counters, rest.calls + 1)
  }

  /** The first successful call ends the loop: its reply, lower-cased and
      stripped, is the answer, and it is the only call that moved the
      counters from their checked values. */
  lemma {:induction false} AttemptsFirstSuccess(script: seq<Reply>, retries: int, c: Counters, lim: Limits,
                                                promptLen: nat, k: nat)
    requires !DailyExhausted(c, lim) && k < Budget(retries) && FirstSuccessAt(script, k)
    ensures var text := ReplyAt(script, k).text;
      Attempts(script, retries, c, lim, promptLen)
      == Run(Normalize(text), Charge(Throttle(c, lim), lim, promptLen + |text|), k + 1)
    decreases retries
  {
    if k == 0 {
      SucceededFirstCall(script, retries, c, lim, promptLen);
    } else {
      var t := Throttle(c, lim);
      FailedFirstCall(script, retries, c, lim, promptLen);
      assert FirstSuccessAt(Later(script), k - 1) by {
        assert ReplyAt(Later(script), k - 1) == ReplyAt(script, k);
      }
      AttemptsFirstSuccess(Later(script), retries - 1, t, lim, promptLen, k - 1);
      ThrottleIdempotent(c, lim);
    }
  }

  lemma SucceededFirstCall(script: seq<Reply>, retries: int, c: Counters, lim: Limits, promptLen: nat)
    requires retries > 0 && !DailyExhausted(c, lim) && ReplyAt(script, 0).Success?
    ensures var text := ReplyAt(script, 0).text;
      Attempts(script, retries, c, lim, promptLen)
      == Run(Normalize(text), Charge(Throttle(c, lim), lim, promptLen + |text|), 1)
  {
  }

  lemma FailedFirstCall(script: seq<Reply>, retries: int, c: Counters, lim: Limits, promptLen: nat)
    requires retries > 0 && !DailyExhausted(c, lim) && ReplyAt(script, 0).Failure?
    ensures var rest := Attempts(Later(script), retries - 1, Throttle(c, lim), lim, promptLen);
      Attempts(script, retries, c, lim, promptLen) == Run(rest.answer, rest.counters, rest.calls + 1)
  {
  }

  /** Call bookkeeping of one script call: the answer, what each attempt
      sent, the counters afterwards and the number of completion calls. */
  datatype Call = Call(answer: string, request: Request, counters: Counters, calls: nat)

  function Scripted(request: Request, run: Run): (call: Call)
    ensures call.request == request && call.answer == run.answer
    ensures call.counters == run.counters && call.calls == run.calls
  {
    Call(run.answer, request, run.counters, run.calls)
  }

  /** `get_drug_post`: nine example pairs, no daily limit, the model as
      given (by default none). */
  function GetDrugPost(post: string, retries: int, model: Option<string>, c: Counters,
                       promptLen: nat, script: seq<Reply>): (call: Call)
    ensures |call.request.messages| == 20
    ensures call.request.messages[0] == Message(System, Instructions(DrugPrompt))
    ensures call.request.messages[19] == Message(User, Literal(post))
    ensures forall k :: 1 <= k < 19 ==> call.request.messages[k].role == (if k % 2 == 1 then User else System)
    ensures call.request.model == model && call.request.temperature == Some(0.0)
    ensures call.counters.daily == c.daily
    ensures call.calls <= Budget(retries)
    ensures AllFail(script, Budget(retries)) ==>
              call.answer == "skipped" && call.calls == Budget(retries)
              && call.counters == (if retries > 0 then Throttle(c, DrugPostLimits) else c)
    ensures forall k :: 0 <= k < Budget(retries) && FirstSuccessAt(script, k) ==>
              var text := ReplyAt(script, k).text;
              call.answer == Normalize(text) && call.calls == k + 1
              && call.counters == Charge(Throttle(c, DrugPostLimits), DrugPostLimits, promptLen + |text|)
  {
    var run := Attempts(script, retries, c, DrugPostLimits, promptLen);
    assert !DailyExhausted(c, DrugPostLimits);
    assert run.counters.daily == c.daily by {
      FailOrFirstSuccess(script, Budget(retries));
      if !AllFail(script, Budget(retries)) {
        var k :| 0 <= k < Budget(retries) && FirstSuccessAt(script, k);
        AttemptsFirstSuccess(script, retries, c, DrugPostLimits, promptLen, k);
      }
    }
    forall k | 0 <= k < Budget(retries) && FirstSuccessAt(script, k)
      ensures run == Run(Normalize(ReplyAt(script, k).text),
                         Charge(Throttle(c, DrugPostLimits), DrugPostLimits, promptLen + |ReplyAt(script, k).text|), k + 1)
    {
      AttemptsFirstSuccess(script, retries, c, DrugPostLimits, promptLen, k);
    }
    Scripted(Request(FewShot(DrugPrompt, 9, post), model, Some(0.0)), run)
  }

  /** `get_utterance`: ten example pairs and the daily limit. */
  function GetUtterance(post: string, retries: int, model: Option<string>, c: Counters,
                        promptLen: nat, script: seq<Reply>): (call: Call)
    ensures |call.request.messages| == 22
    ensures call.request.messages[0] == Message(System, Instructions(StigmaPrompt))
    ensures call.request.messages[21] == Message(User, Literal(post))
    ensures forall k :: 1 <= k < 21 ==> call.request.messages[k].role == (if k % 2 == 1 then User else System)
    ensures call.request.model == model && call.request.temperature == Some(0.0)
    ensures retries > 0 && DailyExhausted(c, UtteranceLimits) ==>
              call.answer == "skipped" && call.calls == 0 && call.counters == Throttle(c, UtteranceLimits)
    ensures call.counters.daily >= c.daily
    ensures call.calls <= Budget(retries)
    ensures AllFail(script, Budget(retries)) ==> call.answer == "skipped"
    ensures !DailyExhausted(c, UtteranceLimits) && AllFail(script, Budget(retries)) ==>
              call.calls == Budget(retries) && call.counters == (if retries > 0 then Throttle(c, UtteranceLimits) else c)
    ensures !DailyExhausted(c, UtteranceLimits) ==> forall k :: 0 <= k < Budget(retries) && FirstSuccessAt(script, k) ==>
              var text := ReplyAt(script, k).text;
              call.answer == Normalize(text) && call.calls == k + 1
              && call.counters == Charge(Throttle(c, UtteranceLimits), UtteranceLimits, promptLen + |text|)
  {
    var run := Attempts(script, retries, c, UtteranceLimits, promptLen);
    forall k | !DailyExhausted(c, UtteranceLimits) && 0 <= k < Budget(retries) && FirstSuccessAt(script, k)
      ensures run == Run(Normalize(ReplyAt(script, k).text),
                         Charge(Throttle(c, UtteranceLimits), UtteranceLimits, promptLen + |ReplyAt(script, k).text|), k + 1)
    {
      AttemptsFirstSuccess(script, retries, c, UtteranceLimits, promptLen, k);
    }
    Scripted(Request(FewShot(StigmaPrompt, 10, post), model, Some(0.0)), run)
  }

  /** The user message of the rewriting scripts: the post, then the
      explanation after "This post ". */
  function PostWithExplanation(post: string, explanation: string): (m: string)
    ensures |m| == |post| + 11 + |explanation|
    ensures m[..|post|] == post && m[|post|] == ';'
    ensures m[|m| - |explanation|..] == explanation
  {
    post + ";" + "This post " + explanation
  }

  /** `get_destigma`: the explanation is narrowed to the parts the step is
      about when its markers are present and kept whole otherwise. */
  function GetDestigma(post: string, explanation: string, step: int, retries: int, model: Option<string>,
                       c: Counters, promptLen: nat, script: seq<Reply>): (call: Call)
    ensures call.request == PromptAndUser(RewritePrompt(BatchScript, step == 1),
                                          PostWithExplanation(post, SplitExplanationOrKeep(explanation, step)),
                                          model, Some(0.0))
    ensures retries > 0 && DailyExhausted(c, DestigmaLimits) ==>
              call.answer == "skipped" && call.calls == 0 && call.counters == Throttle(c, DestigmaLimits)
    ensures call.counters.daily >= c.daily
    ensures call.calls <= Budget(retries)
    ensures AllFail(script, Budget(retries)) ==> call.answer == "skipped"
    ensures !DailyExhausted(c, DestigmaLimits) && AllFail(script, Budget(retries)) ==>
              call.calls == Budget(retries) && call.counters == (if retries > 0 then Throttle(c, DestigmaLimits) else c)
    ensures !DailyExhausted(c, DestigmaLimits) ==> forall k :: 0 <= k < Budget(retries) && FirstSuccessAt(script, k) ==>
              var text := ReplyAt(script, k).text;
              call.answer == Normalize(text) && call.calls == k + 1
              && call.counters == Charge(Throttle(c, DestigmaLimits), DestigmaLimits, promptLen + |text|)
  {
    var request := PromptAndUser(RewritePrompt(BatchScript, step == 1),
                                 PostWithExplanation(post, SplitExplanationOrKeep(explanation, step)),
                                 model, Some(0.0));
    var run := Attempts(script, retries, c, DestigmaLimits, promptLen);
    forall k | !DailyExhausted(c, DestigmaLimits) && 0 <= k < Budget(retries) && FirstSuccessAt(script, k)
      ensures run == Run(Normalize(ReplyAt(script, k).text),
                         Charge(Throttle(c, DestigmaLimits), DestigmaLimits, promptLen + |ReplyAt(script, k).text|), k + 1)
    {
      AttemptsFirstSuccess(script, retries, c, DestigmaLimits, promptLen, k);
    }
    Scripted(request, run)
  }

  /** Without a "Labeling: " marker the first-step rewrite is sent the whole
      explanation. */
  lemma MissingMarkerSendsWholeExplanation(post: string, explanation: string, retries: int, model: Option<string>,
                                           c: Counters, promptLen: nat, script: seq<Reply>)
    requires !Contains(explanation, LabelingMarker)
    ensures GetDestigma(post, explanation, 1, retries, model, c, promptLen, script).request.messages[1]
            == Message(User, Literal(post + ";" + "This post " + explanation))
  {
  }

  datatype Styled = Styled(answer: string, request: Request, attempts: nat)

  /** `get_destigma_style`: the narrowing has no fallback, so a missing
      marker raises `IndexError` before any call; there are no counters. */
  function GetDestigmaStyle(post: string, explanation: string, styleInstruct: string, step: int,
                            retries: int, model: Option<string>, script: seq<Reply>): (r: Result<Styled>)
    ensures r.Err? <==> SplitExplanation(explanation, step).Err?
    ensures r.Err? ==> r.error == IndexError
    ensures r.Ok? ==>
      && r.value.request == PromptAndUser(RewritePrompt(StyleMatching, step == 1),
            PostWithExplanation(post, SplitExplanation(explanation, step).value) + ";" + styleInstruct,
            model, Some(0.0))
      && r.value.attempts <= Budget(retries)
      && (AllFail(script, Budget(retries)) ==> r.value.answer == "skipped" && r.value.attempts == Budget(retries))
      && (forall k :: 0 <= k < Budget(retries) && FirstSuccessAt(script, k) ==>
            r.value.answer == Normalize(ReplyAt(script, k).text) && r.value.attempts == k + 1)
  {
    match SplitExplanation(explanation, step)
    case Err(e) => Err(e)
    case Ok(extracted) =>
      var request := PromptAndUser(RewritePrompt(StyleMatching, step == 1),
                                   PostWithExplanation(post, extracted) + ";" + styleInstruct,
                                   model, Some(0.0));
      var o := RetryOrFallback(script, retries, "skipped");
      Ok(Styled(o.result, request, o.attempts))
  }

  /** The two rewriting scripts agree on the narrowed explanation whenever
      the style script does not raise. */
  lemma SameNarrowing(explanation: string, step: int)
    requires SplitExplanation(explanation, step).Ok?
    ensures SplitExplanationOrKeep(explanation, step) == SplitExplanation(explanation, step).value
  {
  }

  // ---- the scripts' default arguments: two retries, and `ScriptModel`
  // except for the drug labeller, which sends no model ----

  function GetDrugPostDefaults(post: string, c: Counters, promptLen: nat, script: seq<Reply>): (call: Call)
    ensures call.request.model == None && call.request.temperature == Some(0.0)
    ensures call.calls <= 2
    ensures AllFail(script, 2) ==>
              call.answer == "skipped" && call.calls == 2 && call.counters == Throttle(c, DrugPostLimits)
    ensures forall k :: 0 <= k < 2 && FirstSuccessAt(script, k) ==>
              call.answer == Normalize(ReplyAt(script, k).text) && call.calls == k + 1
  {
    GetDrugPost(post, 2, None, c, promptLen, script)
  }

  function GetUtteranceDefaults(post: string, c: Counters, promptLen: nat, script: seq<Reply>): (call: Call)
    ensures call.request.model == Some("gpt-4-turbo-2024-04-09") && call.request.temperature == Some(0.0)
    ensures call.calls <= 2
    ensures AllFail(script, 2) ==> call.answer == "skipped"
    ensures !DailyExhausted(c, UtteranceLimits) && AllFail(script, 2) ==>
              call.calls == 2 && call.counters == Throttle(c, UtteranceLimits)
    ensures !DailyExhausted(c, UtteranceLimits) ==> forall k :: 0 <= k < 2 && FirstSuccessAt(script, k) ==>
              call.answer == Normalize(ReplyAt(script, k).text) && call.calls == k + 1
  {
    GetUtterance(post, 2, Some(ScriptModel), c, promptLen, script)
  }

  function GetDestigmaDefaults(post: string, explanation: string, step: int, c: Counters, promptLen: nat,
                               script: seq<Reply>): (call: Call)
    ensures call.request.model == Some("gpt-4-turbo-2024-04-09") && call.request.temperature == Some(0.0)
    ensures call.calls <= 2
    ensures AllFail(script, 2) ==> call.answer == "skipped"
    ensures !DailyExhausted(c, DestigmaLimits) && AllFail(script, 2) ==>
              call.calls == 2 && call.counters == Throttle(c, DestigmaLimits)
    ensures !DailyExhausted(c, DestigmaLimits) ==> forall k :: 0 <= k < 2 && FirstSuccessAt(script, k) ==>
              call.answer == Normalize(ReplyAt(script, k).text) && call.calls == k + 1
  {
    GetDestigma(post, explanation, step, 2, Some(ScriptModel), c, promptLen, script)
  }

  function GetDestigmaStyleDefaults(post: string, explanation: string, styleInstruct: string, step: int,
                                    script: seq<Reply>): (r: Result<Styled>)
    ensures r.Err? <==> SplitExplanation(explanation, step).Err?
    ensures r.Ok? ==> r.value.request.model == Some("gpt-4-turbo-2024-04-09") && r.value.attempts <= 2
    ensures r.Ok? && AllFail(script, 2) ==> r.value.answer == "skipped" && r.value.attempts == 2
    ensures r.Ok? ==> forall k :: 0 <= k < 2 && FirstSuccessAt(script, k) ==>
              r.value.answer == Normalize(ReplyAt(script, k).text) && r.value.attempts == k + 1
  {
    GetDestigmaStyle(post, explanation, styleInstruct, step, 2, Some(ScriptModel), script)
  }
}

=== FILE: classifiers.dfy ===
/**
  The stand-alone drug and stigma classifiers. They call the client
  directly with a few-shot message list at temperature 0 and retry every
  failure. A missing client is not rejected up front: the attribute
  lookup on it fails inside the loop like any other error, so every
  attempt fails and the classifier answers "skipped".
 */
module Classifiers {
  import opened Base
  import opened Strings
  import opened Oracle

  const DefaultStigmaModel := "gpt-4-turbo-2024-04-09"

  /** A classifier's label, the request it sends and its attempts. */
  datatype Labelled = Labelled(answer: string, request: Request, attempts: nat)

  /** The replies the loop sees: the client's, or a failure on every attempt
      when there is no client. */
  function Seen(clientGiven: bool, script: seq<Reply>): (s: seq<Reply>)
    ensures !clientGiven ==> forall k: nat :: ReplyAt(s, k).Failure?
    ensures clientGiven ==> s == script
  {
    if clientGiven then script else []
  }

  /** The loop both classifiers share. */
  function Classify(prompt: Prompt, pairs: nat, post: string, retries: int, model: Option<string>,
                    clientGiven: bool, script: seq<Reply>): (r: Labelled)
    ensures r.request == Request(FewShot(prompt, pairs, post), model, Some(0.0))
    ensures r.attempts <= Budget(retries)
    ensures AllFail(Seen(clientGiven, script), Budget(retries)) ==> r.answer == "skipped" && r.attempts == Budget(retries)
    ensures forall k :: 0 <= k < Budget(retries) && FirstSuccessAt(Seen(clientGiven, script), k) ==>
              r.answer == Normalize(ReplyAt(script, k).text) && r.attempts == k + 1
  {
    var o := RetryOrFallback(Seen(clientGiven, script), retries, "skipped");
    Labelled(o.result, Request(FewShot(prompt, pairs, post), model, Some(0.0)), o.attempts)
  }

  /** `classify_if_drug` (`model` defaults to `None`): twenty messages, the
      instructions first and the post last, alternating user and system in
      between. */
  function ClassifyIfDrug(post: string, retries: int, model: Option<string>, clientGiven: bool,
                          script: seq<Reply>): (r: Labelled)
    ensures |r.request.messages| == 20
    ensures r.request.messages[0] == Message(System, Instructions(DrugPrompt))
    ensures r.request.messages[19] == Message(User, Literal(post))
    ensures forall k :: 1 <= k < 19 ==> r.request.messages[k].role == (if k % 2 == 1 then User else System)
    ensures r.request.model == model && r.request.temperature == Some(0.0)
    ensures r.attempts <= Budget(retries)
    ensures AllFail(Seen(clientGiven, script), Budget(retries)) ==> r.answer == "skipped" && r.attempts == Budget(retries)
    ensures forall k :: 0 <= k < Budget(retries) && FirstSuccessAt(Seen(clientGiven, script), k) ==>
              r.answer == Normalize(ReplyAt(script, k).text) && r.attempts == k + 1
  {
    Classify(DrugPrompt, 9, post, retries, model, clientGiven, script)
  }

  /** `classify_if_stigma` (`model` defaults to `DefaultStigmaModel`):
      twenty-two messages in the same shape. */
  function ClassifyIfStigma(post: string, retries: int, model: Option<string>, clientGiven: bool,
                            script: seq<Reply>): (r: Labelled)
    ensures |r.request.messages| == 22
    ensures r.request.messages[0] == Message(System, Instructions(StigmaPrompt))
    ensures r.request.messages[21] == Message(User, Literal(post))
    ensures forall k :: 1 <= k < 21 ==> r.request.messages[k].role == (if k % 2 == 1 then User else System)
    ensures r.request.model == model && r.request.temperature == Some(0.0)
    ensures r.attempts <= Budget(retries)
    ensures AllFail(Seen(clientGiven, script), Budget(retries)) ==> r.answer == "skipped" && r.attempts == Budget(retries)
    ensures forall k :: 0 <= k < Budget(retries) && FirstSuccessAt(Seen(clientGiven, script), k) ==>
              r.answer == Normalize(ReplyAt(script, k).text) && r.attempts == k + 1
  {
    Classify(StigmaPrompt, 10, post, retries, model, clientGiven, script)
  }

  /** `classify_if_drug(post, openai_client=c)`: two attempts and no model,
      so the client's default applies. */
  function ClassifyIfDrugDefaults(post: string, clientGiven: bool, script: seq<Reply>): (r: Labelled)
    ensures r.request.model == None && r.request.temperature == Some(0.0)
    ensures |r.request.messages| == 20
    ensures r.attempts <= 2
    ensures AllFail(Seen(clientGiven, script), 2) ==> r.answer == "skipped" && r.attempts == 2
    ensures clientGiven && ReplyAt(script, 0).Success? ==>
              r.answer == Normalize(ReplyAt(script, 0).text) && r.attempts == 1
  {
    assert clientGiven && ReplyAt(script, 0).Success? ==> FirstSuccessAt(Seen(clientGiven, script), 0);
    ClassifyIfDrug(post, 2, None, clientGiven, script)
  }

  /** `classify_if_stigma(post, openai_client=c)`: two attempts with
      `DefaultStigmaModel`. */
  function ClassifyIfStigmaDefaults(post: string, clientGiven: bool, script: seq<Reply>): (r: Labelled)
    ensures r.request.model == Some("gpt-4-turbo-2024-04-09") && r.request.temperature == Some(0.0)
    ensures |r.request.messages| == 22
    ensures r.attempts <= 2
    ensures AllFail(Seen(clientGiven, script), 2) ==> r.answer == "skipped" && r.attempts == 2
    ensures clientGiven && ReplyAt(script, 0).Success? ==>
              r.answer == Normalize(ReplyAt(script, 0).text) && r.attempts == 1
  {
    assert clientGiven && ReplyAt(script, 0).Success? ==> FirstSuccessAt(Seen(clientGiven, script), 0);
    ClassifyIfStigma(post, 2, Some(DefaultStigmaModel), clientGiven, script)
  }

  /** Without a client both classifiers use up their attempts and answer
      "skipped" instead of raising. */
  lemma MissingClientSkips(post: string, retries: int, model: Option<string>, script: seq<Reply>)
    ensures ClassifyIfDrug(post, retries, model, false, script).answer == "skipped"
    ensures ClassifyIfStigma(post, retries, model, false, script).answer == "skipped"
  {
    assert AllFail(Seen(false, script), Budget(retries));
  }

  /** Labels come back lower-case and trimmed, whatever letter case the
      model answers in. */
  lemma LabelsAreNormalized(post: string, retries: int, model: Option<string>, script: seq<Reply>, k: nat)
    requires k < Budget(retries) && FirstSuccessAt(script, k)
    ensures var a := ClassifyIfDrug(post, retries, model, true, script).answer;
      a == Normalize(ReplyAt(script, k).text) && forall i :: 0 <= i < |a| ==> !IsUpper(a[i])
  {
  }
}

=== FILE: config.dfy ===
/**
  Configuration helpers of the `reframe` package: the default-model table,
  API-key lookup with its fallbacks, client identification, and retrying
  with exponential backoff.

  The process environment and the `secrets.json` file are inputs: `env` is
  the environment, `secrets` the parsed file, or `None` when it is missing
  or not valid JSON.
 */
module Config {
  import opened Base
  import opened Strings
  import opened Oracle

  /** `get_default_model`: matched on the lower-cased client type. */
  function DefaultModel(clientType: string): (m: Option<string>)
    ensures m.Some? <==> Lower(clientType) in {"openai", "together", "claude"}
    ensures Lower(clientType) == "openai" ==> m == Some("gpt-4o")
    ensures Lower(clientType) == "together" ==> m == Some("meta-llama/Meta-Llama-3.1-8B-Instruct-Turbo")
    ensures Lower(clientType) == "claude" ==> m == Some("claude-3-haiku-20240307")
  {
    var ct := Lower(clientType);
    if ct == "openai" then Some("gpt-4o")
    else if ct == "together" then Some("meta-llama/Meta-Llama-3.1-8B-Instruct-Turbo")
    else if ct == "claude" then Some("claude-3-haiku-20240307")
    else None
  }

  /** The letter case of the client type does not matter. */
  lemma DefaultModelIgnoresCase(clientType: string)
    ensures DefaultModel(clientType) == DefaultModel(Lower(clientType))
  {
    LowerIdempotent(clientType);
  }

  /** The environment variable (and `secrets.json` key) holding the key for a
      client type. */
  function KeyName(clientType: string): (name: Option<string>)
    ensures name.Some? <==> Lower(clientType) in {"openai", "together", "claude"}
  {
    var ct := Lower(clientType);
    if ct == "openai" then Some("OPENAI_API_KEY")
    else if ct == "together" then Some("TOGETHER_API_KEY")
    else if ct == "claude" then Some("ANTHROPIC_API_KEY")
    else None
  }

  /** `load_api_key`: the environment variable when it is set and non-empty,
      otherwise the file's entry. */
  function LoadApiKey(clientType: string, env: map<string, string>, secrets: Option<map<string, string>>): (key: Option<string>)
    ensures KeyName(clientType).None? ==> key == None
    ensures KeyName(clientType).Some? ==>
      var name := KeyName(clientType).value;
      && (name in env && env[name] != [] ==> key == Some(env[name]))
      && (!(name in env && env[name] != []) ==>
            key == (if secrets.Some? && name in secrets.value then Some(secrets.value[name]) else None))
  {
    match KeyName(clientType)
    case None => None
    case Some(name) =>
      if name in env && env[name] != [] then Some(env[name])
      else if secrets.Some? && name in secrets.value then Some(secrets.value[name])
      else None
  }

  /** An unsupported client type gets no key, whatever the environment and
      the file hold. */
  lemma UnsupportedTypeHasNoKey(clientType: string, env: map<string, string>, secrets: Option<map<string, string>>)
    requires Lower(clientType) !in {"openai", "together", "claude"}
    ensures LoadApiKey(clientType, env, secrets) == None
  {
  }

  predicate SetIn(m: map<string, string>, name: string) {
    name in m && m[name] != []
  }

  /** The providers `determine_client_type` tries, in order: the key name
      and the client type it stands for. */
  const Providers: seq<(string, string)> :=
    [("OPENAI_API_KEY", "openai"), ("TOGETHER_API_KEY", "together"), ("ANTHROPIC_API_KEY", "claude")]

  /** The client type of the first provider whose key is set in `m`. */
  function FirstSet(m: map<string, string>, ps: seq<(string, string)>): (ct: Option<string>)
    ensures ct.None? <==> forall i :: 0 <= i < |ps| ==> !SetIn(m, ps[i].0)
    ensures ct.Some? ==> exists i :: 0 <= i < |ps| && SetIn(m, ps[i].0) && ct.value == ps[i].1
  {
    if |ps| == 0 then None
    else if SetIn(m, ps[0].0) then Some(ps[0].1)
    else
      assert forall i :: 1 <= i < |ps| ==> ps[i] == ps[1..][i - 1];
      FirstSet(m, ps[1..])
  }

  /** `determine_client_type`: the first provider, in the order OpenAI,
      Together, Anthropic, whose key is set in the environment, and then
      the same search in the file. */
  function DetectClientType(env: map<string, string>, secrets: Option<map<string, string>>): (ct: Option<string>)
    ensures ct.Some? ==> ct.value in {"openai", "together", "claude"}
    ensures SetIn(env, "OPENAI_API_KEY") ==> ct == Some("openai")
    ensures !SetIn(env, "OPENAI_API_KEY") && SetIn(env, "TOGETHER_API_KEY") ==> ct == Some("together")
    ensures (!SetIn(env, "OPENAI_API_KEY") && !SetIn(env, "TOGETHER_API_KEY")
             && SetIn(env, "ANTHROPIC_API_KEY")) ==> ct == Some("claude")
    ensures ct.None? <==>
      && !SetIn(env, "OPENAI_API_KEY") && !SetIn(env, "TOGETHER_API_KEY") && !SetIn(env, "ANTHROPIC_API_KEY")
      && (secrets.None? || (!SetIn(secrets.value, "OPENAI_API_KEY") && !SetIn(secrets.value, "TOGETHER_API_KEY")
                            && !SetIn(secrets.value, "ANTHROPIC_API_KEY")))
  {
    if SetIn(env, "OPENAI_API_KEY") then Some("openai")
    else if SetIn(env, "TOGETHER_API_KEY") then Some("together")
    else if SetIn(env, "ANTHROPIC_API_KEY") then Some("claude")
    else match secrets
      case None => None
      case Some(file) =>
        if SetIn(file, "OPENAI_API_KEY") then Some("openai")
        else if SetIn(file, "TOGETHER_API_KEY") then Some("together")
        else if SetIn(file, "ANTHROPIC_API_KEY") then Some("claude")
        else None
  }

  /** Detection is the provider search over the environment, and only when
      that finds nothing, over the file. */
  lemma {:induction false} DetectIsFirstSet(env: map<string, string>, secrets: Option<map<string, string>>)
    ensures DetectClientType(env, secrets)
         == if FirstSet(env, Providers).Some? || secrets.None? then FirstSet(env, Providers)
            else FirstSet(secrets.value, Providers)
  {
    FirstSetProviders(env);
    if secrets.Some? {
      FirstSetProviders(secrets.value);
    }
  }

  /** `FirstSet` over the three providers, spelt out. */
  lemma FirstSetProviders(m: map<string, string>)
    ensures FirstSet(m, Providers)
         == if SetIn(m, "OPENAI_API_KEY") then Some("openai")
            else if SetIn(m, "TOGETHER_API_KEY") then Some("together")
            else if SetIn(m, "ANTHROPIC_API_KEY") then Some("claude")
            else None
  {
    var p3: seq<(string, string)> := [("ANTHROPIC_API_KEY", "claude")];
    var p2 := [("TOGETHER_API_KEY", "together")] + p3;
    assert Providers == [("OPENAI_API_KEY", "openai")] + p2;
    assert Providers[1..] == p2 && p2[1..] == p3 && p3[1..] == [];
    assert FirstSet(m, p3) == if SetIn(m, "ANTHROPIC_API_KEY") then Some("claude") else FirstSet(m, []);
    assert FirstSet(m, p2) == if SetIn(m, "TOGETHER_API_KEY") then Some("together") else FirstSet(m, p3);
  }

  /** The client type guessed from a key's prefix. */
  function InferClientType(apiKey: string): (ct: string)
    ensures StartsWith(apiKey, "sk-a") ==> ct == "claude"
    ensures !StartsWith(apiKey, "sk-a") && StartsWith(apiKey, "sk-") ==> ct == "openai"
    ensures !StartsWith(apiKey, "sk-") ==> ct == "together"
  {
    if StartsWith(apiKey, "sk-ant") || StartsWith(apiKey, "sk-a") then "claude"
    else if StartsWith(apiKey, "sk-") then "openai"
    else "together"
  }

  /** Any key starting "sk-a" counts as an Anthropic key, so an OpenAI key
      such as "sk-abc" is guessed to be one too; the separate "sk-ant" test
      never decides anything. */
  lemma PrefixOrder()
    ensures InferClientType("sk-abc") == "claude"
    ensures InferClientType("sk-proj") == "openai"
    ensures InferClientType("tgp_v1") == "together"
    ensures forall k :: StartsWith(k, "sk-ant") ==> StartsWith(k, "sk-a")
  {
    assert "sk-abc"[..4] == "sk-a";
    assert "sk-proj"[..4] != "sk-a" by { assert "sk-proj"[3] == 'p'; }
    assert "sk-proj"[..3] == "sk-";
    assert "tgp_v1"[..3] != "sk-" by { assert "tgp_v1"[0] == 't'; }
    forall k | StartsWith(k, "sk-ant") ensures StartsWith(k, "sk-a") {
      assert k[..4] == k[..6][..4];
    }
  }

  /** The key-lookup step that looks for the key of one client type. */
  predicate Found(ct: Option<string>, env: map<string, string>, secrets: Option<map<string, string>>) {
    TruthyText(ct) && TruthyText(LoadApiKey(ct.value, env, secrets))
  }

  /** `get_api_key_with_fallbacks`: an explicit key wins (its type given or
      guessed from its prefix), then the key for the given type, then the
      key for the detected type. */
  function GetApiKeyWithFallbacks(apiKey: Option<string>, clientType: Option<string>,
                                  env: map<string, string>, secrets: Option<map<string, string>>): (r: Result<(string, string)>)
    ensures TruthyText(apiKey) ==> r.Ok? && r.value.0 == apiKey.value
    ensures TruthyText(apiKey) && clientType.Some? ==> r.value.1 == clientType.value
    ensures TruthyText(apiKey) && clientType.None? ==> r.value.1 == InferClientType(apiKey.value)
    ensures !TruthyText(apiKey) && Found(clientType, env, secrets) ==>
              r == Ok((LoadApiKey(clientType.value, env, secrets).value, clientType.value))
    ensures (!TruthyText(apiKey) && !Found(clientType, env, secrets)
             && Found(DetectClientType(env, secrets), env, secrets)) ==>
              r == Ok((LoadApiKey(DetectClientType(env, secrets).value, env, secrets).value,
                       DetectClientType(env, secrets).value))
    ensures r.Err? <==> !TruthyText(apiKey) && !Found(clientType, env, secrets)
                        && !Found(DetectClientType(env, secrets), env, secrets)
    ensures r.Err? ==> r.error.ValueError?
  {
    if TruthyText(apiKey) then
      Ok((apiKey.value, if clientType.None? then InferClientType(apiKey.value) else clientType.value))
    else if Found(clientType, env, secrets) then
      Ok((LoadApiKey(clientType.value, env, secrets).value, clientType.value))
    else
      var detected := DetectClientType(env, secrets);
      if Found(detected, env, secrets) then
        Ok((LoadApiKey(detected.value, env, secrets).value, detected.value))
      else
        Err(ValueError("No API key found. Please provide an API key or set the appropriate environment variable."))
  }

  /** What `identify_client` can observe of a client: a `client_type`
      attribute, its class name and whether `chat.completions` and
      `messages.create` exist. */
  datatype ClientShape = ClientShape(
    clientTypeAttr: Option<string>,
    className: string,
    hasChatCompletions: bool,
    hasMessagesCreate: bool)

  /** The lower-cased class name names one of the known providers. */
  predicate NameMatches(className: string) {
    var name := Lower(className);
    Contains(name, "openai") || Contains(name, "together") || Contains(name, "anthropic") || Contains(name, "claude")
  }

  /** `identify_client`: the attribute, then the lower-cased class name,
      then the available methods, else "unknown". */
  function IdentifyClient(c: ClientShape): (ct: string)
    ensures c.clientTypeAttr.Some? ==> ct == c.clientTypeAttr.value
    ensures c.clientTypeAttr.None? ==> ct in {"openai", "together", "claude", "unknown"}
    ensures c.clientTypeAttr.None? && Contains(Lower(c.className), "openai") ==> ct == "openai"
    ensures (c.clientTypeAttr.None? && !Contains(Lower(c.className), "openai")
             && Contains(Lower(c.className), "together")) ==> ct == "together"
    ensures (c.clientTypeAttr.None? && !Contains(Lower(c.className), "openai")
             && !Contains(Lower(c.className), "together")
             && (Contains(Lower(c.className), "anthropic") || Contains(Lower(c.className), "claude"))) ==> ct == "claude"
    ensures c.clientTypeAttr.None? && !NameMatches(c.className) && c.hasChatCompletions ==> ct == "openai"
    ensures (c.clientTypeAttr.None? && !NameMatches(c.className) && !c.hasChatCompletions
             && c.hasMessagesCreate) ==> ct == "claude"
    ensures c.clientTypeAttr.None? && ct == "unknown" <==>
      && c.clientTypeAttr.None? && !NameMatches(c.className)
      && !c.hasChatCompletions && !c.hasMessagesCreate
  {
    if c.clientTypeAttr.Some? then c.clientTypeAttr.value
    else
      var name := Lower(c.className);
      if Contains(name, "openai") then "openai"
      else if Contains(name, "together") then "together"
      else if Contains(name, "anthropic") || Contains(name, "claude") then "claude"
      else if c.hasChatCompletions then "openai"
      else if c.hasMessagesCreate then "claude"
      else "unknown"
  }

  /** The class name outranks the methods: a Together client that also has
      `chat.completions` is still identified as Together. */
  lemma ClassNameBeforeMethods(className: string)
    requires Contains(Lower(className), "together") && !Contains(Lower(className), "openai")
    ensures IdentifyClient(ClientShape(None, className, true, true)) == "together"
  {
  }

  // ---- retry_with_backoff ----

  function Pow(x: real, n: nat): real {
    if n == 0 then 1.0 else x * Pow(x, n - 1)
  }

  /** The waits between attempts: `initial`, then multiplied by `factor`
      after each sleep. */
  function Waits(initial: real, factor: real, n: nat): (ws: seq<real>)
    ensures |ws| == n
    ensures forall i :: 0 <= i < n ==> ws[i] == initial * Pow(factor, i)
  {
    seq(n, i requires 0 <= i < n => initial * Pow(factor, i))
  }

  /** One more sleep appends the current wait, and the next wait is the
      current one times the factor. */
  lemma WaitsGrow(initial: real, factor: real, n: nat, wait: real)
    requires wait == initial * Pow(factor, n)
    ensures Waits(initial, factor, n + 1) == Waits(initial, factor, n) + [wait]
    ensures wait * factor == initial * Pow(factor, n + 1)
  {
    var ws := Waits(initial, factor, n + 1);
    var vs := Waits(initial, factor, n) + [wait];
    forall i | 0 <= i < n + 1 ensures ws[i] == vs[i] {
    }
    assert ws == vs;
  }

  /** How a call of `retry_with_backoff` ends: with the function's value, by
      re-raising the last failure, or with `TypeError` from `raise None`
      when not even one attempt was allowed. */
  datatype Ending = Returned(value: string) | Reraised(error: ApiError) | RaisedTypeError

  /** `retry_with_backoff(func, max_retries, initial_wait, backoff_factor)`:
      up to `max_retries + 1` attempts, sleeping between attempts but not
      after the last one. */
  method RetryWithBackoff(script: seq<Reply>, maxRetries: int, initialWait: real, factor: real)
    returns (ending: Ending, sleeps: seq<real>, calls: nat)
    ensures maxRetries < 0 ==> ending == RaisedTypeError && calls == 0 && sleeps == []
    ensures maxRetries >= 0 ==> 1 <= calls <= maxRetries + 1
    ensures forall k :: 0 <= k <= maxRetries && FirstSuccessAt(script, k) ==>
              ending == Returned(ReplyAt(script, k).text) && calls == k + 1
              && sleeps == Waits(initialWait, factor, k)
    ensures maxRetries >= 0 && AllFail(script, maxRetries + 1) ==>
              ending == Reraised(ReplyAt(script, maxRetries).error) && calls == maxRetries + 1
              && sleeps == Waits(initialWait, factor, maxRetries)
  {
    sleeps := [];
    calls := 0;
    if maxRetries < 0 {
      return RaisedTypeError, sleeps, calls;
    }
    var wait := initialWait;
    var attempt := 0;
    while true
      invariant 0 <= attempt <= maxRetries
      invariant calls == attempt
      invariant AllFail(script, attempt)
      invariant wait == initialWait * Pow(factor, attempt)
      invariant sleeps == Waits(initialWait, factor, attempt)
      decreases maxRetries - attempt
    {
      calls := calls + 1;
      match ReplyAt(script, attempt)
      case Success(text) =>
        return Returned(text), sleeps, calls;
      case Failure(e) =>
        if attempt == maxRetries {
          return Reraised(e), sleeps, calls;
        }
        WaitsGrow(initialWait, factor, attempt, wait);
        sleeps := sleeps + [wait];
        wait := wait * factor;
        attempt := attempt + 1;
    }
  }
}

=== FILE: emotion.dfy ===
/**
  `get_emotion`, of which the repository keeps two identical copies. Its
  loop returns from the first attempt whatever happens: the reply on
  success and "skipped" on failure, so `retries` only decides whether any
  attempt is made at all.
 */
module Emotion {
  import opened Base
  import opened Strings
  import opened Oracle

  const DefaultEmotionModel := "gpt-4-turbo-2024-04-09"

  /** The emotion (`None` where Python falls off the end of the function), the
      request sent and the number of completion calls. */
  datatype Detected = Detected(emotion: Option<string>, request: Request, calls: nat)

  /** The body of the loop: it returns on its first pass. */
  function FirstPassOnly(script: seq<Reply>, retries: int): (r: (Option<string>, nat))
    ensures retries <= 0 ==> r == (None, 0)
    ensures retries > 0 ==> r.1 == 1 && r.0.Some?
    ensures retries > 0 && ReplyAt(script, 0).Success? ==> r.0 == Some(Normalize(ReplyAt(script, 0).text))
    ensures retries > 0 && ReplyAt(script, 0).Failure? ==> r.0 == Some("skipped")
  {
    if retries <= 0 then (None, 0)
    else match ReplyAt(script, 0)
      case Success(text) => (Some(Normalize(text)), 1)
      case Failure(_) => (Some("skipped"), 1)
  }

  /** `get_emotion(text, client, model, temperature, retries)`. */
  function GetEmotion(text: string, model: string, temperature: real, retries: int, script: seq<Reply>): (e: Detected)
    ensures e.request == PromptAndUser(EmotionPrompt, text, Some(model), Some(temperature))
    ensures e.calls <= 1
    ensures retries <= 0 ==> e.emotion == None && e.calls == 0
    ensures retries > 0 && ReplyAt(script, 0).Success? ==>
              e.emotion == Some(Normalize(ReplyAt(script, 0).text)) && e.calls == 1
    ensures retries > 0 && ReplyAt(script, 0).Failure? ==> e.emotion == Some("skipped") && e.calls == 1
  {
    var r := FirstPassOnly(script, retries);
    Detected(r.0, PromptAndUser(EmotionPrompt, text, Some(model), Some(temperature)), r.1)
  }

  /** `get_emotion(text, client)`: `DefaultEmotionModel` at temperature 0
      and two retries, of which one call is made. */
  function GetEmotionDefaults(text: string, script: seq<Reply>): (e: Detected)
    ensures e.request.model == Some("gpt-4-turbo-2024-04-09") && e.request.temperature == Some(0.0)
    ensures e.request.messages == [Message(System, Instructions(EmotionPrompt)), Message(User, Literal(text))]
    ensures e.calls == 1 && e.emotion.Some?
    ensures ReplyAt(script, 0).Failure? ==> e.emotion == Some("skipped")
  {
    GetEmotion(text, DefaultEmotionModel, 0.0, 2, script)
  }

  /** Any positive number of retries behaves like a single one: a failed
      first call is never retried. */
  lemma RetriesBeyondOneUnused(text: string, model: string, temperature: real, retries: int, script: seq<Reply>)
    requires retries >= 1
    ensures GetEmotion(text, model, temperature, retries, script) == GetEmotion(text, model, temperature, 1, script)
  {
  }

  /** A later success in the script is never reached. */
  lemma SecondReplyUnused(text: string, model: string, temperature: real, retries: int, failure: ApiError, later: string)
    requires retries >= 2
    ensures GetEmotion(text, model, temperature, retries, [Failure(failure), Success(later)]).emotion == Some("skipped")
  {
  }
}

=== FILE: explanation.dfy ===
/**
  The stigma classifier explains its verdict as one line of labelled parts,
  "Labeling: ..., Stereotyping: ..., Separation: ..., Discrimination: ...".
  The rewriters pull those parts out in three different ways:

  - the rewriter class searches the lower-cased explanation with `find`,
    takes each part up to the next comma, and falls back to the whole
    explanation when a part is missing;
  - the `reframe` module and the style-aware batch script use
    `split(marker)[1].split(',')[0]` and raise `IndexError` on a missing
    marker;
  - the plain batch script does the same `split`s but keeps the explanation
    as it was whenever one of them raises.

  All three stop at the first comma, so a part whose own wording contains a
  comma is cut short there.
 */
module Explanation {
  import opened Base
  import opened Strings

  /** The value the rewriter class extracts for `key` from the lower-cased
      explanation `low`: the stripped text after the first `key`, up to the
      next comma or the end. */
  predicate Extracts(low: string, key: string, v: Option<string>)
    requires key != []
  {
    && (v.Some? <==> Contains(low, key))
    && (v.Some? ==> v.value == Strip(UpTo(AfterFirst(low, key), ",")))
  }

  /** Where the value of `key` starts: just after its first occurrence. */
  function ValueStart(low: string, key: string): (start: nat)
    requires key != [] && Contains(low, key)
    ensures start <= |low|
    ensures AfterFirst(low, key) == low[start..]
  {
    var i := IndexOf(low, key).value;
    assert |UpTo(low, key)| == i;
    i + |key|
  }

  /** Where the value of `key` ends: at the next comma, or at the end. */
  function ValueEnd(low: string, start: nat): (end: nat)
    requires start <= |low|
    ensures start <= end <= |low|
    ensures low[start..end] == UpTo(low[start..], ",")
  {
    FindFromIsUpTo(low, ",", start);
    match FindFrom(low, ",", start)
    case Some(e) => e
    case None => |low|
  }

  /** One `find`-based extraction of the rewriter class. */
  function Field(low: string, key: string): (v: Option<string>)
    requires key != []
    ensures Extracts(low, key, v)
    ensures v.Some? ==> !Contains(v.value, ",")
  {
    if Contains(low, key) then
      var start := ValueStart(low, key);
      var upto := low[start..ValueEnd(low, start)];
      StripKeepsAbsent(upto, ",");
      Some(Strip(upto))
    else None
  }

  /** The parts the rewriter class recognises, each present only when its
      `"<label>:"` occurs in the explanation. */
  datatype Components = Components(
    labeling: Option<string>,
    stereotyping: Option<string>,
    separation: Option<string>,
    discrimination: Option<string>)

  /** `DestigmatizingRewriter._parse_explanation`: the four keys are matched
      case-insensitively against the lower-cased explanation. */
  function ParseExplanation(explanation: string): (c: Components)
    ensures Extracts(Lower(explanation), "labeling:", c.labeling)
    ensures Extracts(Lower(explanation), "stereotyping:", c.stereotyping)
    ensures Extracts(Lower(explanation), "separation:", c.separation)
    ensures Extracts(Lower(explanation), "discrimination:", c.discrimination)
  {
    var low := Lower(explanation);
    Components(Field(low, "labeling:"), Field(low, "stereotyping:"),
               Field(low, "separation:"), Field(low, "discrimination:"))
  }

  /** When the first `"labeling:"` is followed by a text without commas and
      then a comma, the labeling part is that text, lower-cased and
      stripped: everything after the comma is dropped. */
  lemma CommaTruncates(p: string, v: string, w: string)
    requires Lower(p) == "labeling:"
    requires forall i :: 0 <= i < |v| ==> v[i] != ','
    ensures ParseExplanation(p + v + "," + w).labeling == Some(Strip(Lower(v)))
  {
    LowerShape(p, v, w);
    AfterFirstAtStart("labeling:", Lower(v) + [','] + Lower(w));
    assert "labeling:" + Lower(v) + [','] + Lower(w) == "labeling:" + (Lower(v) + [','] + Lower(w));
    UpToStopsAtChar(Lower(v), ',', Lower(w));
  }

  lemma LowerShape(p: string, v: string, w: string)
    requires Lower(p) == "labeling:"
    ensures Lower(p + v + "," + w) == "labeling:" + Lower(v) + [','] + Lower(w)
  {
    LowerAppend(p + v, "," + w);
    LowerAppend(p, v);
    LowerAppend(",", w);
    assert Lower(",") == ",";
  }

  /** The documented example: the labeling part of "Labeling: Uses the term
      'junkies,' a derogatory label" is cut at the comma inside the quotes. */
  lemma JunkiesLabeling()
    ensures ParseExplanation("Labeling:" + " Uses the term 'junkies" + "," + "' a derogatory label").labeling
         == Some("uses the term 'junkies")
  {
    var v := " Uses the term 'junkies";
    forall i | 0 <= i < |v| ensures v[i] != ',' { }
    assert Lower("Labeling:") == "labeling:";
    CommaTruncates("Labeling:", v, "' a derogatory label");
    JunkiesLowered();
    BlankThenWord("u", "ses the term 'junkies");
    JunkiesWording();
  }

  /** A blank, then a word that starts and ends with non-blanks, strips to
      the word. */
  lemma BlankThenWord(head: string, tail: string)
    requires head != [] && tail != [] && !IsSpace(head[0]) && !IsSpace(tail[|tail| - 1])
    ensures Strip([' '] + head + tail) == head + tail
  {
    var t := head + tail;
    assert [' '] + head + tail == [' '] + t;
    StripLeadingBlank(t);
  }

  lemma JunkiesWording()
    ensures "u" + "ses the term 'junkies" == "uses the term 'junkies"
  {
  }

  lemma JunkiesLowered()
    ensures Lower(" Uses the term 'junkies") == [' '] + "u" + "ses the term 'junkies"
  {
    var tail := "ses the term 'junkies";
    assert " Uses the term 'junkies" == " U" + tail;
    forall i | 0 <= i < |tail| ensures !IsUpper(tail[i]) { }
    LowerAppend(" U", tail);
    LowerUnchanged(tail);
    assert Lower(" U") == [' '] + "u";
  }

  /** The parts joined for any rewriting step other than the first, in the
      order stereotyping, separation, discrimination. */
  function LaterStepParts(c: Components): (parts: seq<string>)
    ensures parts == [] <==> c.stereotyping.None? && c.separation.None? && c.discrimination.None?
    ensures c.stereotyping.Some? ==> parts[0] == "Stereotyping: " + c.stereotyping.value
    ensures c.discrimination.Some? ==> parts[|parts| - 1] == "Discrimination: " + c.discrimination.value
  {
    (if c.stereotyping.Some? then ["Stereotyping: " + c.stereotyping.value] else [])
    + (if c.separation.Some? then ["Separation: " + c.separation.value] else [])
    + (if c.discrimination.Some? then ["Discrimination: " + c.discrimination.value] else [])
  }

  /** The explanation text the rewriter class puts into its request. Step 1
      uses the labeling part; any other step joins the other three parts
      with "; ". Without the parts it needs, it uses the whole explanation,
      lower-cased. */
  function ExplanationPart(explanation: string, step: int): (part: string)
    ensures var c := ParseExplanation(explanation);
      && (step == 1 && c.labeling.Some? ==> part == c.labeling.value)
      && (step == 1 && c.labeling.None? ==> part == Lower(explanation))
      && (step != 1 && LaterStepParts(c) == [] ==> part == Lower(explanation))
      && (step != 1 && LaterStepParts(c) != [] ==> part == Join(LaterStepParts(c), "; "))
  {
    var c := ParseExplanation(explanation);
    if step == 1 then c.labeling.GetOr(Lower(explanation))
    else
      var parts := LaterStepParts(c);
      if parts != [] then Join(parts, "; ") else Lower(explanation)
  }

  /** With all three later parts present, a later step describes the post
      with each of them, titled, in order. */
  lemma LaterStepAllParts(c: Components)
    requires c.stereotyping.Some? && c.separation.Some? && c.discrimination.Some?
    ensures Join(LaterStepParts(c), "; ")
         == "Stereotyping: " + c.stereotyping.value + "; " + "Separation: " + c.separation.value
            + "; " + "Discrimination: " + c.discrimination.value
  {
    var a := "Stereotyping: " + c.stereotyping.value;
    var b := "Separation: " + c.separation.value;
    var d := "Discrimination: " + c.discrimination.value;
    assert LaterStepParts(c) == [a] + [b, d];
    JoinCons(a, [b, d], "; ");
    assert [b, d] == [b] + [d];
    JoinCons(b, [d], "; ");
  }

  const LabelingMarker := "Labeling: "
  const StereotypingMarker := "Stereotyping: "
  const SeparationMarker := "Separation: "
  const DiscriminationMarker := "Discrimination: "

  /** `s.split(marker)[1].split(',')[0]`, or `None` where Python raises
      `IndexError` because `marker` does not occur. The piece taken lies
      between the first and the second `marker`, and then before the first
      comma. */
  function SplitField(s: string, marker: string): (v: Option<string>)
    requires marker != []
    ensures v.Some? <==> Contains(s, marker)
    ensures v.Some? ==> v.value == UpTo(UpTo(AfterFirst(s, marker), marker), ",")
    ensures v.Some? ==> !Contains(v.value, ",")
  {
    var pieces := Split(s, marker);
    if |pieces| >= 2 then
      SecondPiece(s, marker);
      Some(Split(pieces[1], ",")[0])
    else None
  }

  /** When the text after the first `marker` is a comma-free text without
      another `marker`, then a comma, `split` extracts exactly that text. */
  lemma SplitFieldUpToComma(s: string, marker: string, v: string, w: string)
    requires marker != []
    requires forall i :: 0 <= i < |marker| ==> marker[i] != ','
    requires forall i :: 0 <= i < |v| ==> v[i] != ','
    requires !Contains(v, marker)
    requires Contains(s, marker) && AfterFirst(s, marker) == v + "," + w
    ensures SplitField(s, marker) == Some(v)
  {
    UpToThenComma(v, w, marker);
  }

  /** A second marker before the comma also ends the piece: the text after
      a marker is cut at the next occurrence of the same marker. */
  lemma SplitStopsAtRepeatedMarker(marker: string, a: string, b: string)
    requires marker != []
    requires forall i :: 0 <= i < |a| ==> a[i] != marker[0] && a[i] != ','
    ensures SplitField(marker + a + marker + b, marker) == Some(a)
  {
    var s := marker + (a + marker + b);
    assert marker + a + marker + b == s;
    AfterFirstAtStart(marker, a + marker + b);
    UpToBeforeSeparator(a, marker, b);
    FirstCharAbsent(a, ",");
  }

  /** The `find`-based extraction does not stop at a repeated key: after
      the first `"labeling:"`, a second one is part of the value, which runs
      on to the next comma (here, the end of the text). */
  lemma {:induction false} FindRunsPastRepeatedKey(p: string, a: string, b: string)
    requires Lower(p) == "labeling:"
    requires forall i :: 0 <= i < |a| ==> a[i] != ','
    requires forall i :: 0 <= i < |b| ==> b[i] != ','
    ensures ParseExplanation(p + a + p + b).labeling == Some(Strip(Lower(a) + "labeling:" + Lower(b)))
  {
    RepeatedKeyLowered(p, a, b);
    AfterFirstAtStart("labeling:", Lower(a) + "labeling:" + Lower(b));
    RestCommaFree(a, b);
  }

  lemma RestCommaFree(a: string, b: string)
    requires forall i :: 0 <= i < |a| ==> a[i] != ','
    requires forall i :: 0 <= i < |b| ==> b[i] != ','
    ensures !Contains(Lower(a) + "labeling:" + Lower(b), ",")
  {
    var key := "labeling:";
    LabelingKeyCommaFree();
    CommaFreeJoin(key, Lower(b));
    CommaFreeJoin(Lower(a), key + Lower(b));
    assert Lower(a) + key + Lower(b) == Lower(a) + (key + Lower(b));
    FirstCharAbsent(Lower(a) + key + Lower(b), ",");
  }

  lemma LabelingKeyCommaFree()
    ensures forall i :: 0 <= i < |"labeling:"| ==> "labeling:"[i] != ','
  {
  }

  lemma CommaFreeJoin(x: string, y: string)
    requires forall i :: 0 <= i < |x| ==> x[i] != ','
    requires forall i :: 0 <= i < |y| ==> y[i] != ','
    ensures forall i :: 0 <= i < |x + y| ==> (x + y)[i] != ','
  {
  }

  lemma RepeatedKeyLowered(p: string, a: string, b: string)
    requires Lower(p) == "labeling:"
    ensures Lower(p + a + p + b) == "labeling:" + (Lower(a) + "labeling:" + Lower(b))
  {
    LowerAppend(p + a + p, b);
    LowerAppend(p + a, p);
    LowerAppend(p, a);
  }

  /** The three markers a later step needs all occur. */
  predicate AllLaterMarkers(explanation: string) {
    && Contains(explanation, StereotypingMarker)
    && Contains(explanation, SeparationMarker)
    && Contains(explanation, DiscriminationMarker)
  }

  /** The split-based parsing of the `reframe` module's rewriter and the
      style-aware batch script: step 1 takes the labeling piece; any other
      step joins the stereotyping, separation and discrimination pieces with
      ";". A missing marker raises `IndexError`. */
  function SplitExplanation(explanation: string, step: int): (r: Result<string>)
    ensures step == 1 ==> (r.Ok? <==> Contains(explanation, LabelingMarker))
    ensures step != 1 ==> (r.Ok? <==> AllLaterMarkers(explanation))
    ensures r.Err? ==> r.error == IndexError
    ensures step == 1 && r.Ok? ==> r.value == SplitField(explanation, LabelingMarker).value
    ensures step != 1 && r.Ok? ==>
      r.value == SplitField(explanation, StereotypingMarker).value + ";"
                 + SplitField(explanation, SeparationMarker).value + ";"
                 + SplitField(explanation, DiscriminationMarker).value
  {
    if step == 1 then
      match SplitField(explanation, LabelingMarker)
      case None => Err(IndexError)
      case Some(l) => Ok(l)
    else
      match SplitField(explanation, StereotypingMarker)
      case None => Err(IndexError)
      case Some(stereotype) =>
        match SplitField(explanation, SeparationMarker)
        case None => Err(IndexError)
        case Some(separation) =>
          match SplitField(explanation, DiscriminationMarker)
          case None => Err(IndexError)
          case Some(discrimination) => Ok(stereotype + ";" + separation + ";" + discrimination)
  }

  /** The plain batch script: the split-based parsing, keeping the
      explanation as it was whenever any marker it needs is missing. */
  function SplitExplanationOrKeep(explanation: string, step: int): (e: string)
    ensures step == 1 && !Contains(explanation, LabelingMarker) ==> e == explanation
    ensures step == 1 && Contains(explanation, LabelingMarker) ==>
              e == UpTo(UpTo(AfterFirst(explanation, LabelingMarker), LabelingMarker), ",")
    ensures step != 1 && !AllLaterMarkers(explanation) ==> e == explanation
    ensures SplitExplanation(explanation, step).Ok? ==> e == SplitExplanation(explanation, step).value
  {
    match SplitExplanation(explanation, step)
    case Ok(x) => x
    case Err(_) => explanation
  }

  /** The documented example through the split-based parsing: step 1 yields
      the labeling wording up to the comma inside the quotes, keeping its
      capital letter. */
  lemma JunkiesSplit()
    ensures SplitExplanation(LabelingMarker + "Uses the term 'junkies" + ",' a derogatory label", 1)
         == Ok("Uses the term 'junkies")
  {
    var v := "Uses the term 'junkies";
    var w := "' a derogatory label";
    var s := LabelingMarker + (v + "," + w);
    assert LabelingMarker + v + ",' a derogatory label" == s by {
      assert "," + w == ",' a derogatory label";
    }
    assert Contains(s, LabelingMarker) && AfterFirst(s, LabelingMarker) == v + "," + w by {
      AfterFirstAtStart(LabelingMarker, v + "," + w);
    }
    assert forall i :: 0 <= i < |LabelingMarker| ==> LabelingMarker[i] != ',' by {
      MarkersHaveNoComma();
    }
    forall i | 0 <= i < |v| ensures v[i] != ',' && v[i] != 'L' { }
    FirstCharAbsent(v, LabelingMarker);
    SplitFieldUpToComma(s, LabelingMarker, v, w);
  }

  lemma MarkersHaveNoComma()
    ensures forall i :: 0 <= i < |LabelingMarker| ==> LabelingMarker[i] != ','
  {
  }
}

=== FILE: facade.dfy ===
/**
  The destigmatizer façade: the classify-then-rewrite workflow built by
  re-running a growing pipeline, and the backward-compatible single-filter
  entry points that turn pipeline metadata into short codes.

  Every pass of the workflow calls the classifiers again; the answers the
  collaborators give on each pass are the `Services` handed in for that
  pass, so a model that answers differently on a later pass is covered.
 */
module Facade {
  import opened Base
  import opened Strings
  import opened Pipeline
  import opened Filters

  function Drug(): Stage<Filter> { Stage(ClassifyDrug, map[]) }
  function Stigma(): Stage<Filter> { Stage(ClassifyStigma, map[]) }
  function Style(): Stage<Filter> { Stage(AnalyzeStyle, map[]) }
  function Rewrite(): Stage<Filter> { Stage(RewriteText, map[]) }

  /** The outcome of `analyze_and_rewrite_text`: the returned text and the
      filter lists of the passes that were run, in order. */
  datatype Workflow = Workflow(result: string, passes: seq<seq<Stage<Filter>>>)

  /** The rewrite the third pass produces when its stigma classifier agrees. */
  function ThirdPassText(svc: Services, text: string): string {
    var raw := svc.stigmaLabel(text);
    if IsStigmaLabel(raw) then svc.rewrite(text, Text(ExplanationOf(raw)), svc.render(svc.styleAnalysis(text)))
    else text
  }

  /** Each pass's filter list strictly extends the one before it. */
  predicate Grows(passes: seq<seq<Stage<Filter>>>) {
    forall i :: 0 < i < |passes| ==>
      |passes[i - 1]| < |passes[i]| && passes[i][..|passes[i - 1]|] == passes[i - 1]
  }

  /** The pipelines the facade builds, one `add_filter` at a time. */
  lemma PipelinesBuilt()
    ensures var p1 := AddFilter(TextPipeline([]), ClassifyDrug, map[]);
      var p2 := AddFilter(p1, ClassifyStigma, map[]);
      var p3 := AddFilter(AddFilter(p2, AnalyzeStyle, map[]), RewriteText, map[]);
      && p1 == TextPipeline([Drug()])
      && p2 == TextPipeline([Drug(), Stigma()])
      && p3 == TextPipeline([Drug(), Stigma(), Style(), Rewrite()])
  {
  }

  /** The filter lists of the three passes, in the order they may run. */
  function AllPasses(): seq<seq<Stage<Filter>>> {
    [[Drug()], [Drug(), Stigma()], [Drug(), Stigma(), Style(), Rewrite()]]
  }

  /** However many passes run, each extends the one before it. */
  lemma PassesGrow(n: nat)
    requires n <= 3
    ensures Grows(AllPasses()[..n])
  {
    assert [Drug(), Stigma()][..1] == [Drug()];
    assert [Drug(), Stigma(), Style(), Rewrite()][..2] == [Drug(), Stigma()];
  }

  /** `analyze_and_rewrite_text`. `first`, `second` and `third` are what the
      collaborators answer on the drug-only pass, the drug+stigma pass and
      the full pass. */
  function AnalyzeAndRewrite(first: Services, second: Services, third: Services, text: string): (w: Workflow)
    ensures 1 <= |w.passes| <= 3
    ensures w.passes == AllPasses()[..|w.passes|]
  {
    PipelinesBuilt();
    var p1 := AddFilter(TextPipeline([]), ClassifyDrug, map[]);
    var r1 := Process(p1, Runner(first), text);
    if !Truthy(Get(r1.metadata, "is_drug_related", Flag(false))) then
      Workflow(text, [p1.stages])
    else
      var p2 := AddFilter(p1, ClassifyStigma, map[]);
      var r2 := Process(p2, Runner(second), text);
      if !Truthy(Get(r2.metadata, "is_stigmatizing", Flag(false))) then
        Workflow(text, [p1.stages, p2.stages])
      else
        var p3 := AddFilter(AddFilter(p2, AnalyzeStyle, map[]), RewriteText, map[]);
        var r3 := Process(p3, Runner(third), text);
        Workflow(r3.processed, [p1.stages, p2.stages, p3.stages])
  }

  /** Every run of the workflow re-runs a strictly longer pipeline than the
      pass before, starting with the drug classifier alone. */
  lemma WorkflowPassesGrow(first: Services, second: Services, third: Services, text: string)
    ensures var w := AnalyzeAndRewrite(first, second, third, text);
      && w.passes[0] == [Drug()]
      && Grows(w.passes)
  {
    PassesGrow(|AnalyzeAndRewrite(first, second, third, text).passes|);
  }

  /** The drug-only pass records exactly the drug verdict. */
  lemma DrugPass(svc: Services, text: string)
    ensures Process(TextPipeline([Drug()]), Runner(svc), text)
         == State(text, text, map["is_drug_related" := Flag(IsDrugLabel(svc.drugLabel(text)))])
  {
    var st1 := Step(Runner(svc), Drug(), Initial(text));
    assert [Drug()][1..] == [];
  }

  /** The drug+stigma pass: the stigma classifier sees the original text,
      because the drug filter hands it on unchanged. */
  lemma DrugStigmaPass(svc: Services, text: string)
    ensures var r := Process(TextPipeline([Drug(), Stigma()]), Runner(svc), text);
      && r.processed == text
      && Get(r.metadata, "is_stigmatizing", Flag(false)) == Flag(IsStigmaLabel(svc.stigmaLabel(text)))
  {
    var run := Runner(svc);
    var st1 := Step(run, Drug(), Initial(text));
    assert st1.processed == text;
    var st2 := Step(run, Stigma(), st1);
    assert [Drug(), Stigma()][1..] == [Stigma()];
    assert [Stigma()][1..] == [];
  }

  /** One drug-filter step on a record: only `is_drug_related` changes. */
  lemma StepDrug(svc: Services, st: State)
    ensures Step(Runner(svc), Drug(), st)
         == st.(metadata := st.metadata["is_drug_related" := Flag(IsDrugLabel(svc.drugLabel(st.processed)))])
  {
  }

  /** One stigma-filter step on a record: only the verdict and the
      explanation change. */
  lemma StepStigma(svc: Services, st: State)
    ensures var raw := svc.stigmaLabel(st.processed);
      Step(Runner(svc), Stigma(), st)
        == st.(metadata := st.metadata["is_stigmatizing" := Flag(IsStigmaLabel(raw))]
                                      ["stigma_explanation" := Text(ExplanationOf(raw))])
  {
    var raw := svc.stigmaLabel(st.processed);
    var patch := map["is_stigmatizing" := Flag(IsStigmaLabel(raw)), "stigma_explanation" := Text(ExplanationOf(raw))];
    assert st.metadata + patch == st.metadata["is_stigmatizing" := Flag(IsStigmaLabel(raw))]
                                             ["stigma_explanation" := Text(ExplanationOf(raw))];
  }

  /** One style-filter step on a record: only `style_analysis` changes. */
  lemma StepStyle(svc: Services, st: State)
    ensures Step(Runner(svc), Style(), st)
         == st.(metadata := st.metadata["style_analysis" := svc.styleAnalysis(st.processed)])
  {
  }

  /** One rewrite-filter step on a record: the text is replaced by the
      rewriter's answer when the gate is open, and kept otherwise. */
  lemma StepRewrite(svc: Services, st: State)
    ensures !RewriteGateOpen(Some(st)) ==> Step(Runner(svc), Rewrite(), st) == st
    ensures RewriteGateOpen(Some(st)) ==>
      var m := st.metadata;
      Step(Runner(svc), Rewrite(), st).processed
        == svc.rewrite(st.processed, Get(m, "stigma_explanation", Text("")),
                       svc.render(Get(m, "style_analysis", Record(map[]))))
  {
  }

  /** Running a non-empty list of stages is one step, then the rest. */
  lemma RunCons(run: (Stage<Filter>, string, State) -> Output, s: Stage<Filter>, rest: seq<Stage<Filter>>, st: State)
    ensures RunFrom([s] + rest, run, st) == RunFrom(rest, run, Step(run, s, st))
  {
    assert ([s] + rest)[1..] == rest;
  }

  /** A four-stage pipeline is four steps in registration order. */
  lemma FourSteps(run: (Stage<Filter>, string, State) -> Output, a: Stage<Filter>, b: Stage<Filter>,
                  c: Stage<Filter>, d: Stage<Filter>, text: string)
    ensures Process(TextPipeline([a, b, c, d]), run, text)
         == Step(run, d, Step(run, c, Step(run, b, Step(run, a, Initial(text)))))
  {
    var st0 := Initial(text);
    var st1 := Step(run, a, st0);
    var st2 := Step(run, b, st1);
    var st3 := Step(run, c, st2);
    RunCons(run, a, [b, c, d], st0);
    RunCons(run, b, [c, d], st1);
    RunCons(run, c, [d], st2);
    RunCons(run, d, [], st3);
    assert [a] + [b, c, d] == [a, b, c, d];
    assert [b] + [c, d] == [b, c, d];
    assert [c] + [d] == [c, d];
    assert [d] + [] == [d];
  }

  /** The record the rewrite filter of the full pass receives: the original
      text, this pass's stigma verdict and explanation, and its style
      analysis. */
  lemma BeforeRewrite(svc: Services, text: string)
    ensures var run := Runner(svc);
      var st3 := Step(run, Style(), Step(run, Stigma(), Step(run, Drug(), Initial(text))));
      var raw := svc.stigmaLabel(text);
      && st3.processed == text
      && Get(st3.metadata, "is_stigmatizing", Flag(false)) == Flag(IsStigmaLabel(raw))
      && Get(st3.metadata, "stigma_explanation", Text("")) == Text(ExplanationOf(raw))
      && Get(st3.metadata, "style_analysis", Record(map[])) == svc.styleAnalysis(text)
  {
    var run := Runner(svc);
    var st0 := Initial(text);
    var st1 := Step(run, Drug(), st0);
    StepDrug(svc, st0);
    var st2 := Step(run, Stigma(), st1);
    StepStigma(svc, st1);
    StepStyle(svc, st2);
  }

  /** The full pass: the rewriter runs exactly when this pass's stigma
      classifier reports stigma, with this pass's explanation and rendered
      style analysis. */
  lemma FullPass(svc: Services, text: string)
    ensures Process(TextPipeline([Drug(), Stigma(), Style(), Rewrite()]), Runner(svc), text).processed
         == ThirdPassText(svc, text)
  {
    var run := Runner(svc);
    var st3 := Step(run, Style(), Step(run, Stigma(), Step(run, Drug(), Initial(text))));
    BeforeRewrite(svc, text);
    StepRewrite(svc, st3);
    FourSteps(run, Drug(), Stigma(), Style(), Rewrite(), text);
  }

  /** What `analyze_and_rewrite_text` returns: the input when the first pass
      finds no drug content, the input when the second pass finds no stigma,
      and otherwise the third pass's text. The drug verdict of the third
      pass is not consulted. */
  lemma {:induction false} AnalyzeAndRewriteResult(first: Services, second: Services, third: Services, text: string)
    ensures var w := AnalyzeAndRewrite(first, second, third, text);
      && (!IsDrugLabel(first.drugLabel(text)) ==> |w.passes| == 1 && w.result == text)
      && (IsDrugLabel(first.drugLabel(text)) && !IsStigmaLabel(second.stigmaLabel(text)) ==>
            |w.passes| == 2 && w.result == text)
      && (IsDrugLabel(first.drugLabel(text)) && IsStigmaLabel(second.stigmaLabel(text)) ==>
            |w.passes| == 3 && w.result == ThirdPassText(third, text))
  {
    PipelinesBuilt();
    DrugPass(first, text);
    DrugStigmaPass(second, text);
    FullPass(third, text);
  }

  /** With collaborators that answer the same on every pass, the workflow
      rewrites exactly drug-related, stigmatizing text, and otherwise returns
      it unchanged. */
  lemma {:induction false} AnalyzeAndRewriteSteady(svc: Services, text: string)
    ensures var w := AnalyzeAndRewrite(svc, svc, svc, text);
      w.result == if IsDrugLabel(svc.drugLabel(text)) && IsStigmaLabel(svc.stigmaLabel(text))
                  then svc.rewrite(text, Text(ExplanationOf(svc.stigmaLabel(text))), svc.render(svc.styleAnalysis(text)))
                  else text
  {
    AnalyzeAndRewriteResult(svc, svc, svc, text);
  }

  /** `classify_if_drug`: "d" or "nd", from the drug filter's verdict. */
  function ClassifyIfDrug(svc: Services, text: string): (code: string)
    ensures code == "d" || code == "nd"
    ensures code == "d" <==> IsDrugLabel(svc.drugLabel(text))
  {
    var r := Process(AddFilter(TextPipeline([]), ClassifyDrug, map[]), Runner(svc), text);
    DrugPass(svc, text);
    assert AddFilter(TextPipeline([]), ClassifyDrug, map[]) == TextPipeline([Drug()]);
    if Truthy(Get(r.metadata, "is_drug_related", Flag(false))) then "d" else "nd"
  }

  /** The stigma-only pass records the verdict and the explanation. */
  lemma StigmaPass(svc: Services, text: string)
    ensures var r := Process(TextPipeline([Stigma()]), Runner(svc), text);
      && Get(r.metadata, "is_stigmatizing", Flag(false)) == Flag(IsStigmaLabel(svc.stigmaLabel(text)))
      && Get(r.metadata, "stigma_explanation", Text("")) == Text(ExplanationOf(svc.stigmaLabel(text)))
  {
    assert [Stigma()][1..] == [];
  }

  /** `classify_if_stigma`: `"s, " + explanation` or "ns". */
  function ClassifyIfStigma(svc: Services, text: string): (code: string)
    ensures IsStigmaLabel(svc.stigmaLabel(text)) ==> code == "s, " + ExplanationOf(svc.stigmaLabel(text))
    ensures !IsStigmaLabel(svc.stigmaLabel(text)) ==> code == "ns"
  {
    var r := Process(AddFilter(TextPipeline([]), ClassifyStigma, map[]), Runner(svc), text);
    StigmaPass(svc, text);
    assert AddFilter(TextPipeline([]), ClassifyStigma, map[]) == TextPipeline([Stigma()]);
    var explanation := Get(r.metadata, "stigma_explanation", Text(""));
    if Truthy(Get(r.metadata, "is_stigmatizing", Flag(false))) then
      "s, " + (if explanation.Text? then explanation.s else "")
    else "ns"
  }

  /** A classifier answer already in the `"s, <explanation>"` shape comes back
      unchanged, and the fallback "skipped" comes back as "s, skipped". */
  lemma StigmaCodes(svc: Services, text: string, e: string)
    ensures svc.stigmaLabel(text) == "s, " + e ==> ClassifyIfStigma(svc, text) == "s, " + e
    ensures svc.stigmaLabel(text) == "skipped" ==> ClassifyIfStigma(svc, text) == "s, skipped"
  {
    var raw := "s, " + e;
    assert StartsWith(raw, "s");
    assert OccursAt(raw, ", ", 1);
    assert !OccursAt(raw, ", ", 0) by { assert raw[0..2][0] == 's'; }
    assert UpTo(raw, ", ") == "s";
    assert raw == UpTo(raw, ", ") + ", " + e;
    SkippedIsStigmatizing();
  }

  /** `analyze_text_llm`: the style analysis, or an empty record without one. */
  function AnalyzeTextLlm(svc: Services, text: string): (v: Value)
    ensures v == svc.styleAnalysis(text)
  {
    var r := Process(AddFilter(TextPipeline([]), AnalyzeStyle, map[]), Runner(svc), text);
    assert AddFilter(TextPipeline([]), AnalyzeStyle, map[]).stages[1..] == [];
    Get(r.metadata, "style_analysis", Record(map[]))
  }

  /** `rewrite_to_destigma`: the only filter sees empty metadata, so its gate
      is closed and the text comes back as given; `rewrite_data` is carried
      as a keyword argument that no filter reads. */
  function RewriteToDestigma(svc: Services, text: string, explanation: string, styleInstruct: string): (r: string)
    ensures r == text
  {
    var p := AddFilter(TextPipeline([]), RewriteText,
                       map["rewrite_data" := Record(map["explanation" := explanation, "style_instruct" := styleInstruct])]);
    assert !RewriteGateOpen(Some(Initial(text)));
    StepRewrite(svc, Initial(text));
    RunCons(Runner(svc), p.stages[0], [], Initial(text));
    assert p.stages == [p.stages[0]] + [];
    Process(p, Runner(svc), text).processed
  }

  /** `initialize`: a supplied client is returned as it is; otherwise the
      client `get_client` builds, which is not part of this model and is
      passed in as `made`. */
  function Initialize<C>(client: Option<C>, made: C): (c: C)
    ensures client.Some? ==> c == client.value
    ensures client.None? ==> c == made
  {
    if client.Some? then client.value else made
  }
}

=== FILE: filters.dfy ===
/**
  The four filter adapters of the destigmatizer package. Each wraps a
  collaborator that is not part of this model (the drug and stigma
  classifiers, the style analyser and the rewriter of the package's own
  `classifiers`, `analyzers` and `rewriters` modules), reached through the
  `Services` oracle record, and turns its raw answer into metadata.
 */
module Filters {
  import opened Base
  import opened Strings
  import opened Pipeline

  /** What the unseen collaborators answer for a given input: the two
      classifiers' raw labels, the style analysis, and the rewriter's answer
      for (text, explanation, style instruction). `render` is Python's
      `str()` of a metadata value. */
  datatype Services = Services(
    drugLabel: string -> string,
    stigmaLabel: string -> string,
    styleAnalysis: string -> Value,
    rewrite: (string, Value, string) -> string,
    render: Value -> string)

  datatype Filter = ClassifyDrug | ClassifyStigma | AnalyzeStyle | RewriteText

  /** `result.lower() == 'd'`. */
  predicate IsDrugLabel(raw: string)
    ensures IsDrugLabel(raw) <==> raw == "d" || raw == "D"
  {
    Lower(raw) == "d"
  }

  /** `result.startswith('s')`, case-sensitive. */
  predicate IsStigmaLabel(raw: string)
    ensures IsStigmaLabel(raw) <==> |raw| > 0 && raw[0] == 's'
  {
    StartsWith(raw, "s")
  }

  /** The stored explanation: the text after the first `", "` when the label
      is stigmatizing and contains one, otherwise the whole label. */
  function ExplanationOf(raw: string): (e: string)
    ensures IsStigmaLabel(raw) && Contains(raw, ", ") ==> raw == UpTo(raw, ", ") + ", " + e
    ensures !(IsStigmaLabel(raw) && Contains(raw, ", ")) ==> e == raw
  {
    if IsStigmaLabel(raw) && Contains(raw, ", ") then AfterFirst(raw, ", ") else raw
  }

  /** `classify_drug_filter`: the text passes through and only
      `is_drug_related` is written. */
  function DrugFilter(svc: Services, text: string): (out: Output)
    ensures out.Dict? && out.text == Some(text)
    ensures PatchOf(out).Keys == {"is_drug_related"}
    ensures PatchOf(out)["is_drug_related"] == Flag(IsDrugLabel(svc.drugLabel(text)))
  {
    Dict(Some(text), Some(map["is_drug_related" := Flag(Lower(svc.drugLabel(text)) == "d")]))
  }

  /** Only a label that lower-cases to exactly "d" counts as drug-related. */
  lemma DrugLabels()
    ensures IsDrugLabel("d") && IsDrugLabel("D")
    ensures !IsDrugLabel("nd") && !IsDrugLabel("ND") && !IsDrugLabel("skipped") && !IsDrugLabel("d.")
  {
    assert Lower("D") == "d";
    assert Lower("ND") == "nd";
    assert Lower("nd")[0] == 'n';
    assert Lower("skipped")[0] == 's';
    assert |Lower("d.")| == 2;
  }

  /** `classify_stigma_filter`: the text passes through; `is_stigmatizing`
      and `stigma_explanation` are written. */
  function StigmaFilter(svc: Services, text: string): (out: Output)
    ensures out.Dict? && out.text == Some(text)
    ensures PatchOf(out).Keys == {"is_stigmatizing", "stigma_explanation"}
    ensures PatchOf(out)["is_stigmatizing"] == Flag(IsStigmaLabel(svc.stigmaLabel(text)))
    ensures PatchOf(out)["stigma_explanation"] == Text(ExplanationOf(svc.stigmaLabel(text)))
  {
    var raw := svc.stigmaLabel(text);
    var stigmatizing := StartsWith(raw, "s");
    var explanation := if stigmatizing && Contains(raw, ", ") then AfterFirst(raw, ", ") else raw;
    Dict(Some(text), Some(map["is_stigmatizing" := Flag(stigmatizing), "stigma_explanation" := Text(explanation)]))
  }

  /** The classifier's fallback sentinel "skipped" starts with 's', so it
      counts as stigmatizing, and it is its own explanation; "ns" and
      upper-case "S" do not count. */
  lemma SkippedIsStigmatizing()
    ensures IsStigmaLabel("skipped") && ExplanationOf("skipped") == "skipped"
    ensures !IsStigmaLabel("ns") && !IsStigmaLabel("S, Labeling: x")
  {
    var s := "skipped";
    assert !Contains(s, ", ") by {
      forall j | 0 <= j <= |s| - 2 ensures !OccursAt(s, ", ", j) {
        assert s[j..j + 2][0] == s[j] != ',';
      }
    }
    assert "S, Labeling: x"[..1][0] == 'S';
  }

  /** `analyze_style_filter`: the text passes through and only
      `style_analysis` is written. */
  function StyleFilter(svc: Services, text: string): (out: Output)
    ensures out.Dict? && out.text == Some(text)
    ensures PatchOf(out).Keys == {"style_analysis"}
    ensures PatchOf(out)["style_analysis"] == svc.styleAnalysis(text)
  {
    Dict(Some(text), Some(map["style_analysis" := svc.styleAnalysis(text)]))
  }

  /** The gate of `rewrite_text_filter`: a record is present and its
      metadata holds a truthy `is_stigmatizing`. */
  predicate RewriteGateOpen(data: Option<State>) {
    data.Some? && Truthy(Get(data.value.metadata, "is_stigmatizing", Flag(false)))
  }

  /** `rewrite_text_filter`. When the gate is closed it returns the text alone,
      with no metadata; otherwise the rewriter's answer, with
      `was_rewritten` set. */
  function RewriteFilter(svc: Services, text: string, data: Option<State>): (out: Output)
    ensures out.Dict?
    ensures !RewriteGateOpen(data) ==> out == Dict(Some(text), None)
    ensures RewriteGateOpen(data) ==>
      var m := data.value.metadata;
      var explanation := Get(m, "stigma_explanation", Text(""));
      && out.patch == Some(map["was_rewritten" := Flag(true)])
      && out.text == Some(svc.rewrite(text, explanation, svc.render(Get(m, "style_analysis", Record(map[])))))
  {
    // Python's `if not pipeline_data`: the record `process` passes is a
    // non-empty dict, so only a missing record is falsy.
    if data.None? || !Truthy(Get(data.value.metadata, "is_stigmatizing", Flag(false))) then
      Dict(Some(text), None)
    else
      var m := data.value.metadata;
      var explanation := Get(m, "stigma_explanation", Text(""));
      var styleInstruct := svc.render(Get(m, "style_analysis", Record(map[])));
      var rewritten := svc.rewrite(text, explanation, styleInstruct);
      Dict(Some(rewritten), Some(map["was_rewritten" := Flag(true)]))
  }

  /** How the pipeline calls a library filter; the keyword arguments a stage
      was registered with are accepted and ignored by all four. */
  function Apply(svc: Services, stage: Stage<Filter>, text: string, st: State): Output {
    match stage.filter
    case ClassifyDrug => DrugFilter(svc, text)
    case ClassifyStigma => StigmaFilter(svc, text)
    case AnalyzeStyle => StyleFilter(svc, text)
    case RewriteText => RewriteFilter(svc, text, Some(st))
  }

  /** `Apply` with the services fixed, in the shape `Process` expects. */
  function Runner(svc: Services): (Stage<Filter>, string, State) -> Output {
    (stage, text, st) => Apply(svc, stage, text, st)
  }
}

=== FILE: mtld.dfy ===
/**
  `mtld_LD`, the measure of textual lexical diversity written out in the
  reframe package: a left-to-right scan that closes a "factor" whenever the
  type-token ratio of the current segment falls to 0.72 or below, averaged
  over the token list and its reverse. Tokens are given; tokenisation is
  not modelled.
 */
module Mtld {

  /** The state of `mtld_calc` between tokens: full factors so far, the
      distinct tokens of the open segment, and how many tokens it holds. */
  datatype Scan = Scan(count: nat, types: set<string>, total: nat)

  const Start := Scan(0, {}, 0)

  /** `len(types) / (total + 1) <= 0.72` decided on integers: 0.72 is 18/25. */
  lemma ThresholdIsRatio(types: nat, total: nat)
    ensures (types as real / (total + 1) as real <= 0.72) <==> 25 * types <= 18 * (total + 1)
  {
    var d := (total + 1) as real;
    var t := types as real;
    QuotientAtMost(t, d, 0.72);
    assert (25 * types) as real == 25.0 * t;
    assert (18 * (total + 1)) as real == 18.0 * d;
  }

  /** Dividing by a positive number: `t / d <= c` exactly when `t <= c * d`. */
  lemma QuotientAtMost(t: real, d: real, c: real)
    requires d > 0.0
    ensures t / d <= c <==> t <= c * d
  {
    var q := t / d;
    assert q * d == t;
    assert t - c * d == (q - c) * d;
  }

  /** One iteration of the loop: the token joins the segment; if the
      segment's ratio is now at or below the threshold the factor closes and
      the segment starts afresh. */
  function Feed(s: Scan, w: string): (r: Scan)
    ensures r.count == s.count + 1 || r.count == s.count
    ensures r.count == s.count + 1 ==> r.types == {} && r.total == 0
    ensures r.count == s.count ==> r.types == s.types + {w} && r.total == s.total + 1
  {
    var types := s.types + {w};
    if 25 * |types| <= 18 * (s.total + 1) then Scan(s.count + 1, {}, 0)
    else Scan(s.count, types, s.total + 1)
  }

  /** A token closes a factor exactly when the ratio of distinct tokens to
      tokens in the segment, counting this one, is at most 0.72; closing
      empties the segment, and otherwise the token is added to it. */
  lemma FeedClosesIff(s: Scan, w: string)
    ensures var ratio := |s.types + {w}| as real / (s.total + 1) as real;
      && (ratio <= 0.72 ==> Feed(s, w) == Scan(s.count + 1, {}, 0))
      && (ratio > 0.72 ==> Feed(s, w) == Scan(s.count, s.types + {w}, s.total + 1))
  {
    ThresholdIsRatio(|s.types + {w}|, s.total);
  }

  /** The scan after every token of `words`, in order. */
  function ScanAll(words: seq<string>): (s: Scan)
    ensures s.count <= |words| && s.total <= |words|
    decreases |words|
  {
    if |words| == 0 then Start
    else Feed(ScanAll(words[..|words| - 1]), words[|words| - 1])
  }

  /** The share of the tokens left in the open segment. */
  function Fraction(total: nat, n: nat): (f: real)
    requires 0 < total <= n
    ensures 0.0 < f <= 1.0
    ensures f == 1.0 <==> total == n
  {
    total as real / n as real
  }

  /** `mtld_calc(words)`: full factors plus, when the last segment is not
      empty, its length over the number of tokens. */
  function MtldCalc(words: seq<string>): (m: real)
    ensures |words| == 0 ==> m == 0.0
    ensures m >= ScanAll(words).count as real
    ensures ScanAll(words).total == 0 ==> m == ScanAll(words).count as real
    ensures ScanAll(words).total > 0 ==> m <= ScanAll(words).count as real + 1.0
  {
    var s := ScanAll(words);
    ScanSane(words);
    if s.total > 0 then s.count as real + Fraction(s.total, |words|)
    else s.count as real
  }

  function Reverse(words: seq<string>): (r: seq<string>)
    ensures |r| == |words|
    ensures forall i :: 0 <= i < |words| ==> r[i] == words[|words| - 1 - i]
  {
    seq(|words|, i requires 0 <= i < |words| => words[|words| - 1 - i])
  }

  /** `mtld_LD(word_list)`: the mean of the forward and backward passes. */
  function MtldLD(words: seq<string>): (m: real)
    ensures |words| == 0 ==> m == 0.0
  {
    (MtldCalc(words) + MtldCalc(Reverse(words))) / 2.0
  }

  /** What the scan keeps true: the open segment holds no more types than
      tokens, and every closed factor used at least two tokens. */
  predicate Sane(s: Scan, n: nat) {
    |s.types| <= s.total && 2 * s.count + s.total <= n
  }

  /** A segment's first token never closes a factor (its ratio is 1), so a
      factor needs at least two tokens. */
  lemma {:induction false} ScanSane(words: seq<string>)
    ensures Sane(ScanAll(words), |words|)
    decreases |words|
  {
    if |words| > 0 {
      var prefix := words[..|words| - 1];
      ScanSane(prefix);
      var s := ScanAll(prefix);
      var w := words[|words| - 1];
      var types := s.types + {w};
      assert |types| <= |s.types| + 1;
      if 25 * |types| <= 18 * (s.total + 1) {
        assert |types| >= 1 by { assert w in types; }
        assert s.total >= 1;
      }
    }
  }

  /** At most half the tokens' worth of full factors. */
  lemma FactorsBound(words: seq<string>)
    ensures 2 * ScanAll(words).count <= |words|
    ensures ScanAll(words).total <= |words|
  {
    ScanSane(words);
  }

  /** No token repeats. */
  predicate Distinct(words: seq<string>) {
    forall i, j :: 0 <= i < j < |words| ==> words[i] != words[j]
  }

  /** The distinct tokens of a list. */
  function Types(words: seq<string>): set<string> {
    if |words| == 0 then {} else Types(words[..|words| - 1]) + {words[|words| - 1]}
  }

  lemma {:induction false} TypesAreElements(words: seq<string>)
    ensures forall x :: x in Types(words) <==> x in words
    decreases |words|
  {
    if |words| > 0 {
      var prefix := words[..|words| - 1];
      TypesAreElements(prefix);
      assert words == prefix + [words[|words| - 1]];
    }
  }

  /** With no repeated token the ratio stays 1: no factor ever closes and
      the whole list is one open segment. */
  lemma {:induction false} DistinctNeverCloses(words: seq<string>)
    requires Distinct(words)
    ensures ScanAll(words) == Scan(0, Types(words), |words|)
    ensures |Types(words)| == |words|
    decreases |words|
  {
    if |words| > 0 {
      var n := |words|;
      var prefix := words[..n - 1];
      var w := words[n - 1];
      assert Distinct(prefix);
      DistinctNeverCloses(prefix);
      TypesAreElements(prefix);
      assert w !in prefix by {
        forall i | 0 <= i < n - 1 ensures prefix[i] != w {
          assert words[i] != words[n - 1];
        }
      }
      assert |Types(prefix) + {w}| == n;
    }
  }

  lemma ReverseDistinct(words: seq<string>)
    requires Distinct(words)
    ensures Distinct(Reverse(words))
  {
    var r := Reverse(words);
    forall i, j | 0 <= i < j < |r| ensures r[i] != r[j] {
      assert r[i] == words[|words| - 1 - i] && r[j] == words[|words| - 1 - j];
    }
  }

  lemma DistinctOpen(words: seq<string>)
    requires Distinct(words)
    ensures ScanAll(words).count == 0 && ScanAll(words).total == |words|
  {
    DistinctNeverCloses(words);
  }

  /** A pass over one or more distinct tokens scores exactly 1. */
  lemma DistinctPassIsOne(words: seq<string>)
    requires |words| >= 1 && Distinct(words)
    ensures MtldCalc(words) == 1.0
  {
    DistinctOpen(words);
    ScanSane(words);
    assert MtldCalc(words) == 0.0 + Fraction(|words|, |words|);
  }

  /** One or more distinct tokens score exactly 1. */
  lemma DistinctScoresOne(words: seq<string>)
    requires |words| >= 1 && Distinct(words)
    ensures MtldLD(words) == 1.0
  {
    DistinctPassIsOne(words);
    ReverseDistinct(words);
    DistinctPassIsOne(Reverse(words));
  }

  /** The measure does not depend on the direction of the list. */
  lemma ReversalInvariant(words: seq<string>)
    ensures MtldLD(Reverse(words)) == MtldLD(words)
  {
    assert Reverse(Reverse(words)) == words;
  }

  /** A repeated pair closes a factor at its second token ("a a": ratio
      1/2), leaving nothing open. */
  lemma RepeatClosesFactor(w: string)
    ensures ScanAll([w, w]) == Scan(1, {}, 0)
    ensures MtldLD([w, w]) == 1.0
  {
    assert [w, w][..1] == [w];
    assert [w][..0] == [];
    assert ScanAll([w]) == Scan(0, {w}, 1);
    assert ScanAll([w, w]) == Feed(Scan(0, {w}, 1), w);
    assert Reverse([w, w]) == [w, w];
  }
}

=== FILE: oracle.dfy ===
/**
  The completion capability every decision in the system is wrapped around,
  as an oracle. A run of the LLM is a script: the k-th call made during one
  operation receives `script[k]`; calls beyond the end of the script fail.
  Prompt bodies and few-shot example strings are not modelled: messages only
  record their role and which prompt, example or literal text they carry.
 */
module Oracle {
  import opened Base
  import opened Strings

  datatype ApiError = RateLimitError(message: string) | OtherError(message: string)

  /** The outcome of one completion call. */
  datatype Reply = Success(text: string) | Failure(error: ApiError)

  /** The outcome of the k-th call of a scripted run. */
  function ReplyAt(script: seq<Reply>, k: nat): Reply {
    if k < |script| then script[k] else Failure(OtherError("no scripted reply"))
  }

  /** The script as seen by the attempts after the first one. */
  function Later(script: seq<Reply>): (rest: seq<Reply>)
    ensures forall k: nat :: ReplyAt(rest, k) == ReplyAt(script, k + 1)
  {
    if |script| == 0 then [] else script[1..]
  }

  datatype Role = System | User

  /** Which fixed prompt a system message carries. */
  datatype Prompt =
    | DrugPrompt
    | StigmaPrompt
    | EmotionPrompt
    | RewritePrompt(variant: RewriteVariant, labelingStep: bool)

  /** The rewrite prompt texts: the rewriter class's, the batch script's,
      and the style-matching one that `reframe.py` and the style script
      share word for word. */
  datatype RewriteVariant = RewriterClass | BatchScript | StyleMatching

  datatype Content =
    | Instructions(prompt: Prompt)
    | ExamplePost(prompt: Prompt, n: nat)
    | ExampleAnswer(prompt: Prompt, n: nat)
    | Literal(text: string)

  datatype Message = Message(role: Role, content: Content)

  /** What each attempt of an operation sends; every attempt of one
      operation sends the same request. `None` for the model or the
      temperature means the request leaves it to the client. */
  datatype Request = Request(messages: seq<Message>, model: Option<string>, temperature: Option<real>)

  /** The first `n` few-shot pairs of `prompt`: each example post as a user
      message followed by its answer as a system message. */
  function ExamplePairs(prompt: Prompt, n: nat): (ms: seq<Message>)
    ensures |ms| == 2 * n
    ensures forall k :: 0 <= k < n ==> ms[2 * k] == Message(User, ExamplePost(prompt, k + 1))
    ensures forall k :: 0 <= k < n ==> ms[2 * k + 1] == Message(System, ExampleAnswer(prompt, k + 1))
  {
    if n == 0 then []
    else ExamplePairs(prompt, n - 1) + [Message(User, ExamplePost(prompt, n)), Message(System, ExampleAnswer(prompt, n))]
  }

  /** The few-shot message list the classifiers send: the instructions, `n`
      example pairs, then the post itself as the final user message. */
  function FewShot(prompt: Prompt, n: nat, post: string): (ms: seq<Message>)
    ensures |ms| == 2 * n + 2
    ensures ms[0] == Message(System, Instructions(prompt))
    ensures ms[|ms| - 1] == Message(User, Literal(post))
    ensures forall k :: 1 <= k < |ms| - 1 ==> ms[k].role == (if k % 2 == 1 then User else System)
  {
    var pairs := ExamplePairs(prompt, n);
    var ms := [Message(System, Instructions(prompt))] + pairs + [Message(User, Literal(post))];
    assert forall k :: 1 <= k < |ms| - 1 ==> ms[k] == pairs[k - 1];
    forall k | 1 <= k < |ms| - 1
      ensures ms[k].role == (if k % 2 == 1 then User else System)
    {
      var j := (k - 1) / 2;
      if k % 2 == 1 {
        assert k - 1 == 2 * j;
      } else {
        assert k - 1 == 2 * j + 1;
      }
    }
    ms
  }

  /** A request made of one system prompt and one user message. */
  function PromptAndUser(prompt: Prompt, user: string, model: Option<string>, temperature: Option<real>): (req: Request)
    ensures |req.messages| == 2
    ensures req.messages[0] == Message(System, Instructions(prompt))
    ensures req.messages[1] == Message(User, Literal(user))
    ensures req.model == model && req.temperature == temperature
  {
    Request([Message(System, Instructions(prompt)), Message(User, Literal(user))], model, temperature)
  }

  /** What a `while retries > 0` loop that retries on every failure observed:
      the first successful reply, if any, and the number of calls made. */
  datatype Retried = Retried(answer: Option<string>, calls: nat)

  /** The attempt budget of `while retries > 0: ... retries -= 1`. */
  function Budget(retries: int): nat {
    if retries > 0 then retries else 0
  }

  /** The retry loop shared by the classifiers, rewriters and wrappers: call
      until the first success, at most `retries` times. */
  function RetryLoop(script: seq<Reply>, retries: int): (r: Retried)
    ensures r.calls <= Budget(retries)
    ensures retries > 0 ==> r.calls >= 1
    ensures forall k :: 0 <= k < r.calls - 1 ==> ReplyAt(script, k).Failure?
    ensures r.answer.Some? ==> r.calls >= 1
    ensures r.answer.Some? ==> ReplyAt(script, r.calls - 1) == Success(r.answer.value)
    ensures r.answer.None? ==> r.calls == Budget(retries)
    ensures r.answer.None? ==> forall k :: 0 <= k < r.calls ==> ReplyAt(script, k).Failure?
    decreases retries
  {
    if retries <= 0 then Retried(None, 0)
    else match ReplyAt(script, 0)
      case Success(text) => Retried(Some(text), 1)
      case Failure(_) =>
        var rest := RetryLoop(Later(script), retries - 1);
        assert forall k :: 1 <= k <= rest.calls ==> ReplyAt(script, k) == ReplyAt(Later(script), k - 1);
        Retried(rest.answer, rest.calls + 1)
  }

  /** A loop succeeds exactly when some call within the budget succeeds. */
  lemma RetryLoopSucceedsIff(script: seq<Reply>, retries: int)
    ensures RetryLoop(script, retries).answer.Some?
        <==> exists k :: 0 <= k < Budget(retries) && ReplyAt(script, k).Success?
  {
    var r := RetryLoop(script, retries);
    if r.answer.Some? {
      assert ReplyAt(script, r.calls - 1).Success?;
    }
  }

  /** The first `n` calls of a run all fail. */
  predicate AllFail(script: seq<Reply>, n: nat) {
    forall k :: 0 <= k < n ==> ReplyAt(script, k).Failure?
  }

  /** Call `k` is the first call of a run that succeeds. */
  predicate FirstSuccessAt(script: seq<Reply>, k: nat) {
    ReplyAt(script, k).Success? && AllFail(script, k)
  }

  /** Within any budget, either every call fails or there is a first
      success. */
  lemma {:induction false} FailOrFirstSuccess(script: seq<Reply>, n: nat)
    ensures AllFail(script, n) || exists k :: 0 <= k < n && FirstSuccessAt(script, k)
  {
    if n > 0 {
      FailOrFirstSuccess(script, n - 1);
      if AllFail(script, n - 1) && ReplyAt(script, n - 1).Success? {
        assert FirstSuccessAt(script, n - 1);
      }
    }
  }

  /** What a retrying caller returns, and after how many attempts. */
  datatype Outcome = Outcome(result: string, attempts: nat)

  /** The classifier, rewriter and wrapper loops: at most `retries`
      attempts; the first reply that arrives, lower-cased and stripped, or
      `fallback` once every attempt failed. */
  function RetryOrFallback(script: seq<Reply>, retries: int, fallback: string): (o: Outcome)
    ensures o.attempts <= Budget(retries)
    ensures AllFail(script, Budget(retries)) ==> o == Outcome(fallback, Budget(retries))
    ensures forall k :: 0 <= k < Budget(retries) && FirstSuccessAt(script, k) ==>
              o == Outcome(Normalize(ReplyAt(script, k).text), k + 1)
  {
    var r := RetryLoop(script, retries);
    match r.answer
    case Some(text) =>
      assert ReplyAt(script, r.calls - 1).Success?;
      Outcome(Normalize(text), r.calls)
    case None => Outcome(fallback, r.calls)
  }
}

=== FILE: pipeline.dfy ===
/**
  The pipe-and-filter engine of `TextPipeline`: an ordered list of filters,
  each with the keyword arguments it was registered with, threaded over a
  `{original_text, processed_text, metadata}` record.

  A filter is any value of type `F`; what calling it does is the `run`
  function handed to `Process`. The client and model the pipeline forwards
  to every filter are part of `run`. Python hands each filter the live
  record itself, so a filter could change it in place; here a filter sees
  a copy and acts only through what it returns, which covers every filter
  that does not mutate the record it is given (the library's four do not).
 */
module Pipeline {
  import opened Base

  /** The metadata values the library's filters write. */
  datatype Value =
    | Flag(b: bool)
    | Text(s: string)
    | Record(fields: map<string, string>)

  /** Python truthiness of a metadata value. */
  predicate Truthy(v: Value) {
    match v
    case Flag(b) => b
    case Text(s) => s != []
    case Record(fields) => |fields| > 0
  }

  type Metadata = map<string, Value>

  /** Python's `metadata.get(key, default)`. */
  function Get(m: Metadata, key: string, default: Value): Value {
    if key in m then m[key] else default
  }

  /** The record `process` threads through a run. */
  datatype State = State(original: string, processed: string, metadata: Metadata)

  /** What a filter call returned: a dict with optional `"text"` and
      `"metadata"` entries, a plain string, or anything else. */
  datatype Output =
    | Dict(text: Option<string>, patch: Option<Metadata>)
    | Plain(s: string)
    | Other

  datatype Stage<F> = Stage(filter: F, kwargs: map<string, Value>)

  datatype TextPipeline<F> = TextPipeline(stages: seq<Stage<F>>)

  /** The metadata a filter output contributes (`filter_result.get("metadata", {})`). */
  function PatchOf(out: Output): Metadata {
    if out.Dict? && out.patch.Some? then out.patch.value else map[]
  }

  /** The working text after a filter output. */
  function TextAfter(out: Output, current: string): string {
    match out
    case Dict(text, _) => if text.Some? then text.value else current
    case Plain(s) => s
    case Other => current
  }

  /** `add_filter`: the new stage goes at the end, the others keep their order. */
  function AddFilter<F>(p: TextPipeline<F>, filter: F, kwargs: map<string, Value>): (q: TextPipeline<F>)
    ensures |q.stages| == |p.stages| + 1
    ensures q.stages[..|p.stages|] == p.stages
    ensures q.stages[|p.stages|] == Stage(filter, kwargs)
  {
    TextPipeline(p.stages + [Stage(filter, kwargs)])
  }

  /** The record a run starts from. */
  function Initial(text: string): (st: State)
    ensures st.original == text && st.processed == text
    ensures st.metadata == map[]
  {
    State(text, text, map[])
  }

  /** One iteration of the loop in `process`: call the filter on the current
      working text and the current record, then fold its output in. */
  function Step<F>(run: (Stage<F>, string, State) -> Output, stage: Stage<F>, st: State): (r: State)
    ensures r.original == st.original
    ensures r.processed == TextAfter(run(stage, st.processed, st), st.processed)
    ensures r.metadata.Keys == st.metadata.Keys + PatchOf(run(stage, st.processed, st)).Keys
    ensures forall k :: k in PatchOf(run(stage, st.processed, st)) ==>
              r.metadata[k] == PatchOf(run(stage, st.processed, st))[k]
    ensures forall k :: k in st.metadata && k !in PatchOf(run(stage, st.processed, st)) ==>
              r.metadata[k] == st.metadata[k]
  {
    var out := run(stage, st.processed, st);
    match out
    case Dict(text, patch) =>
      State(st.original, if text.Some? then text.value else st.processed,
            st.metadata + (if patch.Some? then patch.value else map[]))
    case Plain(s) => st.(processed := s)
    case Other => st
  }

  /** The filters from `stages` applied in order, starting from `st`. */
  function RunFrom<F>(stages: seq<Stage<F>>, run: (Stage<F>, string, State) -> Output, st: State): (r: State)
    ensures r.original == st.original
    ensures st.metadata.Keys <= r.metadata.Keys
    decreases |stages|
  {
    if |stages| == 0 then st
    else RunFrom(stages[1..], run, Step(run, stages[0], st))
  }

  /** `process(text)`. */
  function Process<F>(p: TextPipeline<F>, run: (Stage<F>, string, State) -> Output, text: string): (r: State)
    ensures r.original == text
  {
    RunFrom(p.stages, run, Initial(text))
  }

  /** Every intermediate record of a run: `Trace(...)[i]` is the record the
      i-th filter receives. */
  function Trace<F>(stages: seq<Stage<F>>, run: (Stage<F>, string, State) -> Output, st: State): (t: seq<State>)
    ensures |t| == |stages| + 1
    ensures t[0] == st
    decreases |stages|
  {
    if |stages| == 0 then [st]
    else [st] + Trace(stages[1..], run, Step(run, stages[0], st))
  }

  /** Filters run in registration order, each on the working text and record
      its predecessor left, and the run's result is the last record. */
  lemma {:induction false} TraceIsOrderedRun<F>(stages: seq<Stage<F>>, run: (Stage<F>, string, State) -> Output, st: State)
    ensures var t := Trace(stages, run, st);
      && t[|stages|] == RunFrom(stages, run, st)
      && forall i :: 0 <= i < |stages| ==> t[i + 1] == Step(run, stages[i], t[i])
    decreases |stages|
  {
    if |stages| > 0 {
      var next := Step(run, stages[0], st);
      TraceIsOrderedRun(stages[1..], run, next);
      var t := Trace(stages, run, st);
      var u := Trace(stages[1..], run, next);
      assert t == [st] + u;
      forall i | 1 <= i < |stages|
        ensures t[i + 1] == Step(run, stages[i], t[i])
      {
        assert t[i + 1] == u[i] && t[i] == u[i - 1] && stages[i] == stages[1..][i - 1];
      }
    }
  }

  /** Running `a ++ b` is running `a`, then `b` from where `a` stopped. */
  lemma {:induction false} RunAppend<F>(a: seq<Stage<F>>, b: seq<Stage<F>>, run: (Stage<F>, string, State) -> Output, st: State)
    ensures RunFrom(a + b, run, st) == RunFrom(b, run, RunFrom(a, run, st))
    decreases |a|
  {
    if |a| > 0 {
      assert (a + b)[0] == a[0];
      assert (a + b)[1..] == a[1..] + b;
      RunAppend(a[1..], b, run, Step(run, a[0], st));
    } else {
      assert a + b == b;
    }
  }

  /** A pipeline with no filters returns `(text, text, {})`. */
  lemma EmptyPipeline<F>(run: (Stage<F>, string, State) -> Output, text: string)
    ensures Process(TextPipeline([]), run, text) == State(text, text, map[])
  {
  }

  /** A filter that returns something other than a dict or a string changes
      nothing, and a plain string changes only the working text. */
  lemma NonDictOutputs<F>(run: (Stage<F>, string, State) -> Output, stage: Stage<F>, st: State)
    ensures run(stage, st.processed, st).Other? ==> Step(run, stage, st) == st
    ensures run(stage, st.processed, st).Plain? ==>
      Step(run, stage, st) == st.(processed := run(stage, st.processed, st).s)
  {
  }

  /** The two-stage accumulation property: keys written by two filters in
      sequence are all present afterwards, and on a collision the later
      filter's value wins. */
  lemma {:induction false} TwoStagesAccumulate<F>(run: (Stage<F>, string, State) -> Output, s1: Stage<F>, s2: Stage<F>, text: string)
    ensures var st1 := Step(run, s1, Initial(text));
      var r := Process(TextPipeline([s1, s2]), run, text);
      var p1 := PatchOf(run(s1, text, Initial(text)));
      var p2 := PatchOf(run(s2, st1.processed, st1));
      && r.metadata.Keys == p1.Keys + p2.Keys
      && (forall k :: k in p2 ==> r.metadata[k] == p2[k])
      && (forall k :: k in p1 && k !in p2 ==> r.metadata[k] == p1[k])
  {
    var st0 := Initial(text);
    var st1 := Step(run, s1, st0);
    var st2 := Step(run, s2, st1);
    assert [s1, s2][1..] == [s2];
    assert RunFrom([s2], run, st1) == RunFrom([], run, st2);
  }
}

=== FILE: reframe.dfy ===
/**
  The `reframe` module's script functions: client set-up, the completion
  call every other function goes through, the two few-shot classifiers,
  the split-based rewriter and emotion detection.

  The completion call re-raises any failure as a plain exception with a
  prefixed message; every caller catches all exceptions, so only whether
  an attempt failed matters to them.
 */
module Reframe {
  import opened Base
  import opened Strings
  import opened Oracle
  import opened Explanation
  import Emotion

  datatype ClientKind = SuppliedClient | OpenAIClient | TogetherClient

  /** What `initialize` returns: the client and the client type as given. */
  datatype Initialized = Initialized(client: ClientKind, clientType: Option<string>)

  /** `initialize(api_key, client, client_type)`. `clientGiven` is the
      truthiness of `client`; a missing `client_type` makes `.lower()` raise
      `AttributeError`. */
  function Initialize(apiKey: Option<string>, clientGiven: bool, clientType: Option<string>): (r: Result<Initialized>)
    ensures r.Ok? ==> r.value.clientType == clientType
    ensures clientGiven ==> r.Ok? && r.value.client == SuppliedClient
    ensures !clientGiven && !TruthyText(apiKey) ==> r == Err(ValueError("Either api_key or client must be provided"))
    ensures r.Ok? && r.value.client == OpenAIClient ==> clientType.Some? && Lower(clientType.value) == "openai"
    ensures r.Ok? && r.value.client == TogetherClient ==> clientType.Some? && Lower(clientType.value) == "together"
    ensures !clientGiven && TruthyText(apiKey) && clientType.None? ==> r == Err(AttributeError)
    ensures (!clientGiven && TruthyText(apiKey) && clientType.Some?
             && Lower(clientType.value) != "openai" && Lower(clientType.value) != "together")
            ==> r == Err(ValueError("Unsupported client type: " + clientType.value))
  {
    if clientGiven then Ok(Initialized(SuppliedClient, clientType))
    else if TruthyText(apiKey) then
      match clientType
      case None => Err(AttributeError)
      case Some(ct) =>
        if Lower(ct) == "openai" then Ok(Initialized(OpenAIClient, clientType))
        else if Lower(ct) == "together" then Ok(Initialized(TogetherClient, clientType))
        else Err(ValueError("Unsupported client type: " + ct))
    else Err(ValueError("Either api_key or client must be provided"))
  }

  /** Set-up succeeds exactly with a supplied client, or with a key and a
      client type that is "openai" or "together" in any letter case. */
  lemma InitializeSucceedsIff(apiKey: Option<string>, clientGiven: bool, clientType: Option<string>)
    ensures Initialize(apiKey, clientGiven, clientType).Ok?
        <==> clientGiven
             || (TruthyText(apiKey) && clientType.Some?
                 && (Lower(clientType.value) == "openai" || Lower(clientType.value) == "together"))
  {
  }

  /** Any letter case selects the client; the type is returned as spelt. */
  lemma InitializeIgnoresCase(apiKey: string)
    requires apiKey != []
    ensures Initialize(Some(apiKey), false, Some("OpenAI")) == Ok(Initialized(OpenAIClient, Some("OpenAI")))
    ensures Initialize(Some(apiKey), false, Some("TOGETHER")) == Ok(Initialized(TogetherClient, Some("TOGETHER")))
  {
    assert Lower("OpenAI") == "openai";
    assert Lower("TOGETHER") == "together";
  }

  const OpenAIDefault := "gpt-4o"
  const TogetherDefault := "meta-llama/Meta Llama 3.1 70B Instruct Turbo"

  /** The model `create_completion` asks for: the caller's when it is a
      non-empty string, otherwise a default chosen by an exact,
      case-sensitive comparison of the client type with "openai". */
  function CompletionModel(model: Option<string>, clientType: string): (m: string)
    ensures TruthyText(model) ==> m == model.value
    ensures !TruthyText(model) ==> (m == OpenAIDefault <==> clientType == "openai")
    ensures !TruthyText(model) && clientType != "openai" ==> m == TogetherDefault
  {
    if TruthyText(model) then model.value
    else if clientType == "openai" then OpenAIDefault
    else TogetherDefault
  }

  /** Unlike `initialize`, the default model is picked case-sensitively:
      "OpenAI" gets the Llama model. */
  lemma DefaultModelIsCaseSensitive()
    ensures CompletionModel(None, "OpenAI") == TogetherDefault
    ensures CompletionModel(Some(""), "openai") == OpenAIDefault
  {
    assert "OpenAI"[0] != "openai"[0];
  }

  /** `create_completion`'s outcome for one raw reply: a success passes
      through; any failure becomes a plain exception whose message is
      prefixed with "Error creating completion: ". */
  function CreateCompletion(reply: Reply): (r: Reply)
    ensures r.Success? <==> reply.Success?
    ensures reply.Success? ==> r == reply
    ensures reply.Failure? ==> r == Failure(OtherError("Error creating completion: " + reply.error.message))
  {
    match reply
    case Success(_) => reply
    case Failure(e) => Failure(OtherError("Error creating completion: " + e.message))
  }

  /** The replies the callers of `create_completion` see. */
  function Wrapped(script: seq<Reply>): (w: seq<Reply>)
    ensures |w| == |script|
    ensures forall k :: 0 <= k < |script| ==> w[k] == CreateCompletion(script[k])
  {
    seq(|script|, k requires 0 <= k < |script| => CreateCompletion(script[k]))
  }

  /** Re-raising keeps every attempt's success or failure, and the text of
      every success. */
  lemma WrappedKeepsOutcomes(script: seq<Reply>, n: nat)
    ensures AllFail(Wrapped(script), n) <==> AllFail(script, n)
    ensures forall k :: 0 <= k < n ==>
      (FirstSuccessAt(Wrapped(script), k) <==> FirstSuccessAt(script, k))
    ensures forall k :: 0 <= k < n && FirstSuccessAt(script, k) ==>
      ReplyAt(Wrapped(script), k).text == ReplyAt(script, k).text
  {
    assert forall k: nat :: ReplyAt(Wrapped(script), k).Success? <==> ReplyAt(script, k).Success?;
  }

  /** A classifier's label, the request it sent and its attempts. */
  datatype Classified = Classified(answer: string, request: Request, attempts: nat)

  /** The retry loop every script function runs around `create_completion`:
      the same request on every attempt, at most `retries` attempts, and
      "skipped" once every attempt failed. */
  function RetriedRequest(request: Request, retries: int, script: seq<Reply>): (r: Classified)
    ensures r.request == request
    ensures r.attempts <= Budget(retries)
    ensures AllFail(script, Budget(retries)) ==> r.answer == "skipped" && r.attempts == Budget(retries)
    ensures forall k :: 0 <= k < Budget(retries) && FirstSuccessAt(script, k) ==>
              r.answer == Normalize(ReplyAt(script, k).text) && r.attempts == k + 1
  {
    WrappedKeepsOutcomes(script, Budget(retries));
    var o := RetryOrFallback(Wrapped(script), retries, "skipped");
    Classified(o.result, request, o.attempts)
  }

  /** The classifier loops: the few-shot request with `pairs` example pairs
      and temperature 0. */
  function FewShotClassify(prompt: Prompt, pairs: nat, post: string, retries: int, model: Option<string>,
                           clientType: string, script: seq<Reply>): (r: Classified)
    ensures r.request == Request(FewShot(prompt, pairs, post), Some(CompletionModel(model, clientType)), Some(0.0))
    ensures r.attempts <= Budget(retries)
    ensures AllFail(script, Budget(retries)) ==> r.answer == "skipped" && r.attempts == Budget(retries)
    ensures forall k :: 0 <= k < Budget(retries) && FirstSuccessAt(script, k) ==>
              r.answer == Normalize(ReplyAt(script, k).text) && r.attempts == k + 1
  {
    RetriedRequest(Request(FewShot(prompt, pairs, post), Some(CompletionModel(model, clientType)), Some(0.0)), retries, script)
  }

  /** `classify_if_drug`: nine example pairs, so twenty messages. */
  function ClassifyIfDrug(post: string, retries: int, model: Option<string>, clientType: string,
                          script: seq<Reply>): (r: Classified)
    ensures |r.request.messages| == 20
    ensures r.request.messages[0] == Message(System, Instructions(DrugPrompt))
    ensures r.request.messages[19] == Message(User, Literal(post))
    ensures r.request.model == Some(CompletionModel(model, clientType)) && r.request.temperature == Some(0.0)
    ensures r.attempts <= Budget(retries)
    ensures AllFail(script, Budget(retries)) ==> r.answer == "skipped" && r.attempts == Budget(retries)
    ensures forall k :: 0 <= k < Budget(retries) && FirstSuccessAt(script, k) ==>
              r.answer == Normalize(ReplyAt(script, k).text) && r.attempts == k + 1
  {
    FewShotClassify(DrugPrompt, 9, post, retries, model, clientType, script)
  }

  /** `classify_if_stigma`: ten example pairs, so twenty-two messages. */
  function ClassifyIfStigma(post: string, retries: int, model: Option<string>, clientType: string,
                            script: seq<Reply>): (r: Classified)
    ensures |r.request.messages| == 22
    ensures r.request.messages[0] == Message(System, Instructions(StigmaPrompt))
    ensures r.request.messages[21] == Message(User, Literal(post))
    ensures r.request.model == Some(CompletionModel(model, clientType)) && r.request.temperature == Some(0.0)
    ensures r.attempts <= Budget(retries)
    ensures AllFail(script, Budget(retries)) ==> r.answer == "skipped" && r.attempts == Budget(retries)
    ensures forall k :: 0 <= k < Budget(retries) && FirstSuccessAt(script, k) ==>
              r.answer == Normalize(ReplyAt(script, k).text) && r.attempts == k + 1
  {
    FewShotClassify(StigmaPrompt, 10, post, retries, model, clientType, script)
  }

  /** The user message of the split-based rewriters: the post, then
      "This post " and the extracted explanation, then the style
      instruction, separated by ";". */
  function StyledUserMessage(post: string, explanation: string, styleInstruct: string): (m: string)
    ensures |m| == |post| + 12 + |explanation| + |styleInstruct|
    ensures m[..|post|] == post && m[|post|] == ';'
    ensures m[|post| + 11..|m| - |styleInstruct| - 1] == explanation
    ensures m[|m| - |styleInstruct| - 1] == ';' && m[|m| - |styleInstruct|..] == styleInstruct
  {
    post + ";" + "This post " + explanation + ";" + styleInstruct
  }

  /** `rewrite_to_destigma`: the explanation is taken apart with `split`
      first, so a missing marker raises `IndexError` before any completion
      call; otherwise the request is retried like a classifier's and
      exhaustion gives "skipped". */
  function RewriteToDestigma(post: string, explanation: string, styleInstruct: string, step: int,
                             model: Option<string>, retries: int, clientType: string,
                             script: seq<Reply>): (r: Result<Classified>)
    ensures r.Err? <==> SplitExplanation(explanation, step).Err?
    ensures r.Err? ==> r.error == IndexError
    ensures r.Ok? ==>
      && r.value.request.messages
         == [Message(System, Instructions(RewritePrompt(StyleMatching, step == 1))),
             Message(User, Literal(StyledUserMessage(post, SplitExplanation(explanation, step).value, styleInstruct)))]
      && r.value.request.model == Some(CompletionModel(model, clientType))
      && r.value.request.temperature == Some(0.0)
    ensures r.Ok? ==> r.value.attempts <= Budget(retries)
    ensures r.Ok? && AllFail(script, Budget(retries)) ==>
              r.value.answer == "skipped" && r.value.attempts == Budget(retries)
    ensures r.Ok? ==> forall k :: 0 <= k < Budget(retries) && FirstSuccessAt(script, k) ==>
              r.value.answer == Normalize(ReplyAt(script, k).text) && r.value.attempts == k + 1
  {
    match SplitExplanation(explanation, step)
    case Err(e) => Err(e)
    case Ok(extracted) =>
      var request := PromptAndUser(RewritePrompt(StyleMatching, step == 1),
                                   StyledUserMessage(post, extracted, styleInstruct),
                                   Some(CompletionModel(model, clientType)), Some(0.0));
      Ok(RetriedRequest(request, retries, script))
  }

  /** `get_emotion` of the `reframe` module: the same single-pass loop as
      the stand-alone copies, through `create_completion`. */
  function GetEmotion(text: string, model: Option<string>, temperature: real, retries: int,
                      clientType: string, script: seq<Reply>): (e: Emotion.Detected)
    ensures e.request == PromptAndUser(EmotionPrompt, text, Some(CompletionModel(model, clientType)), Some(temperature))
    ensures e.calls <= 1
    ensures retries <= 0 ==> e.emotion == None && e.calls == 0
    ensures retries > 0 && ReplyAt(script, 0).Success? ==>
              e.emotion == Some(Normalize(ReplyAt(script, 0).text)) && e.calls == 1
    ensures retries > 0 && ReplyAt(script, 0).Failure? ==> e.emotion == Some("skipped") && e.calls == 1
  {
    var w := Wrapped(script);
    assert ReplyAt(w, 0).Success? <==> ReplyAt(script, 0).Success?;
    var r := Emotion.FirstPassOnly(w, retries);
    Emotion.Detected(r.0, PromptAndUser(EmotionPrompt, text, Some(CompletionModel(model, clientType)), Some(temperature)), r.1)
  }
}

=== FILE: rewriter.dfy ===
/**
  `DestigmatizingRewriter.rewrite`: one system prompt and one user message
  carrying the post, the part of the stigma explanation the step needs and
  the style instruction, retried until a reply arrives.
 */
module Rewriter {
  import opened Base
  import opened Strings
  import opened Oracle
  import opened Explanation

  /** What the rewriter returns, the request every attempt sends and the
      number of attempts made. */
  datatype Rewritten = Rewritten(text: string, request: Request, attempts: nat)

  const RewriteFailed := "Error rewriting text"

  /** The user message: the post, then "This post uses " and the explanation
      part, then the style instruction, separated by ";". */
  function UserMessage(text: string, part: string, styleInstruct: string): string {
    text + ";" + "This post uses " + part + ";" + styleInstruct
  }

  /** `rewrite`. The model is the one the client's model mapping chose
      (`get_model_mapping`, which is not part of this model); no temperature
      is passed. */
  function Rewrite(text: string, explanation: string, styleInstruct: string, step: int,
                   mappedModel: Option<string>, retries: int, script: seq<Reply>): (r: Rewritten)
    ensures r.request.messages
         == [Message(System, Instructions(RewritePrompt(RewriterClass, step == 1))),
             Message(User, Literal(UserMessage(text, ExplanationPart(explanation, step), styleInstruct)))]
    ensures r.request.model == mappedModel && r.request.temperature == None
    ensures r.attempts <= Budget(retries)
    ensures AllFail(script, Budget(retries)) ==> r.text == RewriteFailed && r.attempts == Budget(retries)
    ensures forall k :: 0 <= k < Budget(retries) && FirstSuccessAt(script, k) ==>
              r.text == Normalize(ReplyAt(script, k).text) && r.attempts == k + 1
  {
    var part := ExplanationPart(explanation, step);
    var request := PromptAndUser(RewritePrompt(RewriterClass, step == 1),
                                 UserMessage(text, part, styleInstruct), mappedModel, None);
    var o := RetryOrFallback(script, retries, RewriteFailed);
    Rewritten(o.result, request, o.attempts)
  }

  /** The user message can be taken apart again at its separators when the
      post, the explanation part and the style instruction contain no ";". */
  lemma {:induction false} UserMessageFields(text: string, part: string, styleInstruct: string)
    requires forall i :: 0 <= i < |text| ==> text[i] != ';'
    requires forall i :: 0 <= i < |part| ==> part[i] != ';'
    requires forall i :: 0 <= i < |styleInstruct| ==> styleInstruct[i] != ';'
    ensures Split(UserMessage(text, part, styleInstruct), ";") == [text, "This post uses " + part, styleInstruct]
  {
    var middle := "This post uses " + part;
    forall i | 0 <= i < |middle| ensures middle[i] != ';' {
      if i >= 15 { assert middle[i] == part[i - 15]; }
    }
    assert UserMessage(text, part, styleInstruct) == text + [';'] + (middle + [';'] + styleInstruct);
    SplitAtFirstChar(text, ';', middle + [';'] + styleInstruct);
    SplitAtFirstChar(middle, ';', styleInstruct);
    SplitWithoutChar(styleInstruct, ';');
  }

  /** A rewriter that is given no attempts sends nothing and reports the
      failure text. */
  lemma NoAttempts(text: string, explanation: string, styleInstruct: string, step: int,
                   mappedModel: Option<string>, retries: int, script: seq<Reply>)
    requires retries <= 0
    ensures Rewrite(text, explanation, styleInstruct, step, mappedModel, retries, script).text == RewriteFailed
    ensures Rewrite(text, explanation, styleInstruct, step, mappedModel, retries, script).attempts == 0
  {
  }
}

=== FILE: strings.dfy ===
/**
  The handful of Python `str` operations the modelled code relies on:
  `lower`, `strip`, `startswith`, `find`, `in`, `split` and `join`,
  stated over `string` (a `seq<char>`).

  Case mapping covers ASCII letters and whitespace is the ASCII whitespace
  Python's `str.isspace` accepts (tab through carriage return, the four
  information separators and space).
 */
module Strings {
  import opened Base

  predicate IsSpace(c: char) {
    ('\t' <= c <= '\r') || (28 <= c as int <= 32)
  }

  predicate IsUpper(c: char) {
    'A' <= c <= 'Z'
  }

  function LowerChar(c: char): (d: char)
    ensures !IsUpper(d)
    ensures IsSpace(d) <==> IsSpace(c)
    ensures d == ',' <==> c == ','
  {
    if IsUpper(c) then (c as int + 32) as char else c
  }

  /** Python's `s.lower()` on ASCII letters. */
  function Lower(s: string): (r: string)
    ensures |r| == |s|
    ensures forall i :: 0 <= i < |s| ==> r[i] == LowerChar(s[i])
  {
    seq(|s|, i requires 0 <= i < |s| => LowerChar(s[i]))
  }

  lemma LowerAppend(a: string, b: string)
    ensures Lower(a + b) == Lower(a) + Lower(b)
  {
    assert forall i :: 0 <= i < |a + b| ==> Lower(a + b)[i] == (Lower(a) + Lower(b))[i];
  }

  /** A text without capital letters is its own lower-case form. */
  lemma LowerUnchanged(s: string)
    requires forall i :: 0 <= i < |s| ==> !IsUpper(s[i])
    ensures Lower(s) == s
  {
  }

  /** Lower-casing twice changes nothing more than lower-casing once. */
  lemma LowerIdempotent(s: string)
    ensures Lower(Lower(s)) == Lower(s)
  {
  }

  predicate StartsWith(s: string, prefix: string) {
    |prefix| <= |s| && s[..|prefix|] == prefix
  }

  /** `pat` occurs in `s` starting at index `i`. */
  predicate OccursAt(s: string, pat: string, i: int) {
    0 <= i && i + |pat| <= |s| && s[i..i + |pat|] == pat
  }

  /** Python's `pat in s`. */
  predicate Contains(s: string, pat: string) {
    exists j :: 0 <= j <= |s| - |pat| && OccursAt(s, pat, j)
  }

  /** Python's `s.find(pat, start)`, with `None` for Python's `-1`. */
  function FindFrom(s: string, pat: string, start: nat): (r: Option<nat>)
    ensures r.Some? ==> start <= r.value && OccursAt(s, pat, r.value)
    ensures r.Some? ==> forall j :: start <= j < r.value ==> !OccursAt(s, pat, j)
    ensures r.None? ==> forall j :: start <= j ==> !OccursAt(s, pat, j)
    decreases |s| - start
  {
    if start + |pat| > |s| then None
    else if s[start..start + |pat|] == pat then Some(start)
    else FindFrom(s, pat, start + 1)
  }

  /** Python's `s.find(pat)`. */
  function IndexOf(s: string, pat: string): (r: Option<nat>)
    ensures r.Some? <==> Contains(s, pat)
    ensures r.Some? ==> OccursAt(s, pat, r.value)
    ensures r.Some? ==> forall j :: 0 <= j < r.value ==> !OccursAt(s, pat, j)
  {
    FindFrom(s, pat, 0)
  }

  lemma OccursInPrefix(s: string, pat: string, n: nat, j: int)
    requires n <= |s|
    requires OccursAt(s[..n], pat, j)
    ensures OccursAt(s, pat, j)
  {
    assert s[..n][j..j + |pat|] == s[j..j + |pat|];
  }

  lemma OccursInSuffix(s: string, pat: string, n: nat, j: int)
    requires n <= |s|
    requires OccursAt(s[n..], pat, j)
    ensures OccursAt(s, pat, n + j)
  {
    assert s[n..][j..j + |pat|] == s[n + j..n + j + |pat|];
  }

  /** Python's `s.split(sep)` for a non-empty separator. */
  function Split(s: string, sep: string): (parts: seq<string>)
    requires sep != []
    ensures |parts| >= 1
    ensures |parts| == 1 <==> !Contains(s, sep)
    ensures forall k :: 0 <= k < |parts| ==> !Contains(parts[k], sep)
    decreases |s|
  {
    match IndexOf(s, sep)
    case None => [s]
    case Some(i) =>
      var head := s[..i];
      assert !Contains(head, sep) by {
        forall j | OccursAt(head, sep, j) ensures false {
          OccursInPrefix(s, sep, i, j);
        }
      }
      [head] + Split(s[i + |sep|..], sep)
  }

  /** Python's `sep.join(parts)`. */
  function Join(parts: seq<string>, sep: string): string
  {
    if |parts| == 0 then ""
    else if |parts| == 1 then parts[0]
    else parts[0] + sep + Join(parts[1..], sep)
  }

  lemma JoinCons(head: string, tail: seq<string>, sep: string)
    requires |tail| >= 1
    ensures Join([head] + tail, sep) == head + sep + Join(tail, sep)
  {
    assert ([head] + tail)[1..] == tail;
  }

  /** Splitting and re-joining with the same separator restores the text. */
  lemma {:induction false} JoinSplit(s: string, sep: string)
    requires sep != []
    ensures Join(Split(s, sep), sep) == s
    decreases |s|
  {
    if Contains(s, sep) {
      var rest := AfterFirst(s, sep);
      var i := IndexOf(s, sep).value;
      assert rest == s[i + |sep|..];
      var tail := Split(rest, sep);
      assert Split(s, sep) == [UpTo(s, sep)] + tail;
      JoinSplit(rest, sep);
      JoinCons(UpTo(s, sep), tail, sep);
    }
  }

  /** The text before the first `sep`, or all of `s` when there is none
      (Python's `s.split(sep)[0]`). */
  function UpTo(s: string, sep: string): (r: string)
    requires sep != []
    ensures |r| <= |s| && r == s[..|r|]
    ensures !Contains(r, sep)
    ensures |r| == |s| <==> !Contains(s, sep)
    ensures |r| < |s| ==> OccursAt(s, sep, |r|)
    ensures forall j :: 0 <= j < |r| ==> !OccursAt(s, sep, j)
  {
    match IndexOf(s, sep)
    case None => s
    case Some(i) => Split(s, sep)[0]
  }

  /** The text after the first `sep` (Python's `s.split(sep, 1)[1]`). */
  function AfterFirst(s: string, sep: string): (r: string)
    requires sep != []
    requires Contains(s, sep)
    ensures s == UpTo(s, sep) + sep + r
  {
    var i := IndexOf(s, sep).value;
    assert s == s[..i] + s[i..i + |sep|] + s[i + |sep|..];
    s[i + |sep|..]
  }

  /** A text that starts with `sep` splits right after it. */
  lemma AfterFirstAtStart(sep: string, rest: string)
    requires sep != []
    ensures Contains(sep + rest, sep)
    ensures AfterFirst(sep + rest, sep) == rest
  {
    var s := sep + rest;
    assert OccursAt(s, sep, 0);
    assert |UpTo(s, sep)| == 0;
  }

  /** The second piece of Python's `s.split(sep)` is the text between the
      first and the second `sep`. */
  lemma SecondPiece(s: string, sep: string)
    requires sep != []
    requires Contains(s, sep)
    ensures |Split(s, sep)| >= 2
    ensures Split(s, sep)[1] == UpTo(AfterFirst(s, sep), sep)
  {
    var i := IndexOf(s, sep).value;
    var rest := AfterFirst(s, sep);
    assert rest == s[i + |sep|..];
    assert Split(s, sep) == [s[..i]] + Split(rest, sep);
    assert UpTo(rest, sep) == Split(rest, sep)[0];
  }

  /** Splitting at a one-character separator stops at its first occurrence. */
  lemma UpToStopsAtChar(a: string, c: char, b: string)
    requires forall i :: 0 <= i < |a| ==> a[i] != c
    ensures UpTo(a + [c] + b, [c]) == a
  {
    var x := a + [c] + b;
    var u := UpTo(x, [c]);
    assert OccursAt(x, [c], |a|);
    forall j | 0 <= j < |a| ensures !OccursAt(x, [c], j) {
      assert x[j..j + 1][0] == a[j];
    }
    assert x[..|a|] == a;
  }

  /** A text free of the one-character separator `c` is a single piece. */
  lemma SplitWithoutChar(a: string, c: char)
    requires forall i :: 0 <= i < |a| ==> a[i] != c
    ensures Split(a, [c]) == [a]
  {
    forall j | 0 <= j <= |a| - 1 ensures !OccursAt(a, [c], j) {
      assert a[j..j + 1][0] == a[j];
    }
  }

  /** Splitting at a one-character separator peels off the text before its
      first occurrence. */
  lemma SplitAtFirstChar(a: string, c: char, rest: string)
    requires forall i :: 0 <= i < |a| ==> a[i] != c
    ensures Split(a + [c] + rest, [c]) == [a] + Split(rest, [c])
  {
    var x := a + [c] + rest;
    assert OccursAt(x, [c], |a|);
    forall j | 0 <= j < |a| ensures !OccursAt(x, [c], j) {
      assert x[j..j + 1][0] == a[j];
    }
    assert IndexOf(x, [c]) == Some(|a|);
    assert x[..|a|] == a;
    assert x[|a| + 1..] == rest;
  }

  /** The text before the first `sep`, with the search starting at `start`,
      is what `s.find(sep, start)` bounds (the rest of `s` when it finds
      nothing). */
  lemma FindFromIsUpTo(s: string, pat: string, start: nat)
    requires pat != [] && start <= |s|
    ensures FindFrom(s, pat, start).Some? <==> Contains(s[start..], pat)
    ensures FindFrom(s, pat, start).Some? ==>
              FindFrom(s, pat, start).value == start + |UpTo(s[start..], pat)|
    ensures FindFrom(s, pat, start).None? ==> UpTo(s[start..], pat) == s[start..]
  {
    if FindFrom(s, pat, start).Some? {
      FindFromFound(s, pat, start);
    } else {
      FindFromMissing(s, pat, start);
    }
  }

  lemma FindFromFound(s: string, pat: string, start: nat)
    requires pat != [] && start <= |s| && FindFrom(s, pat, start).Some?
    ensures Contains(s[start..], pat)
    ensures FindFrom(s, pat, start).value == start + |UpTo(s[start..], pat)|
  {
    var t := s[start..];
    var e := FindFrom(s, pat, start).value;
    assert t[e - start..e - start + |pat|] == s[e..e + |pat|];
    assert OccursAt(t, pat, e - start);
    var u := UpTo(t, pat);
    OccursInSuffix(s, pat, start, |u|);
  }

  lemma FindFromMissing(s: string, pat: string, start: nat)
    requires pat != [] && start <= |s| && FindFrom(s, pat, start).None?
    ensures !Contains(s[start..], pat)
  {
    var t := s[start..];
    forall j | 0 <= j <= |t| - |pat| ensures !OccursAt(t, pat, j) {
      assert !OccursAt(s, pat, start + j);
      assert t[j..j + |pat|] == s[start + j..start + j + |pat|];
    }
  }

  /** A text without the first character of `pat` does not contain it. */
  lemma FirstCharAbsent(s: string, pat: string)
    requires pat != [] && forall i :: 0 <= i < |s| ==> s[i] != pat[0]
    ensures !Contains(s, pat)
  {
    forall j | 0 <= j <= |s| - |pat| ensures !OccursAt(s, pat, j) {
      assert s[j..j + |pat|][0] == s[j];
    }
  }

  /** Text up to a separator that follows a prefix without the separator's
      first character is that prefix. */
  lemma UpToBeforeSeparator(a: string, sep: string, b: string)
    requires sep != [] && forall i :: 0 <= i < |a| ==> a[i] != sep[0]
    ensures UpTo(a + sep + b, sep) == a
  {
    var x := a + sep + b;
    assert x[|a|..|a| + |sep|] == sep;
    assert OccursAt(x, sep, |a|);
    forall j | 0 <= j < |a| ensures !OccursAt(x, sep, j) {
      assert x[j..j + |sep|][0] == a[j];
    }
    var u := UpTo(x, sep);
    assert |u| == |a|;
    assert u == x[..|a|] == a;
  }

  /** Taking the text before the first `sep` and then the text before the
      first comma keeps everything up to the first comma, when `sep` has no
      comma and does not occur before it. */
  lemma UpToThenComma(v: string, w: string, sep: string)
    requires sep != []
    requires forall i :: 0 <= i < |sep| ==> sep[i] != ','
    requires forall i :: 0 <= i < |v| ==> v[i] != ','
    requires !Contains(v, sep)
    ensures UpTo(UpTo(v + "," + w, sep), ",") == v
  {
    var x := v + "," + w;
    var u := UpTo(x, sep);
    forall j | 0 <= j <= |v| ensures !OccursAt(x, sep, j) {
      if j + |sep| <= |v| {
        assert v[j..j + |sep|] == x[j..j + |sep|];
        assert !OccursAt(v, sep, j);
      } else if j + |sep| <= |x| {
        assert x[j..j + |sep|][|v| - j] == x[|v|] == ',';
      }
    }
    assert |u| > |v|;
    var rest := u[|v| + 1..];
    assert u == x[..|u|];
    assert u == v + [','] + rest;
    UpToStopsAtChar(v, ',', rest);
  }

  /** Python's `s.lstrip()`. */
  function LStrip(s: string): (r: string)
    ensures |r| <= |s| && r == s[|s| - |r|..]
    ensures r == [] || !IsSpace(r[0])
    ensures forall i :: 0 <= i < |s| - |r| ==> IsSpace(s[i])
    decreases |s|
  {
    if |s| > 0 && IsSpace(s[0]) then LStrip(s[1..]) else s
  }

  /** Python's `s.rstrip()`. */
  function RStrip(s: string): (r: string)
    ensures |r| <= |s| && r == s[..|r|]
    ensures r == [] || !IsSpace(r[|r| - 1])
    ensures forall i :: |r| <= i < |s| ==> IsSpace(s[i])
    decreases |s|
  {
    if |s| > 0 && IsSpace(s[|s| - 1]) then RStrip(s[..|s| - 1]) else s
  }

  /** Number of leading whitespace characters `strip` removes. */
  function StripStart(s: string): nat
    ensures StripStart(s) <= |s|
  {
    |s| - |LStrip(s)|
  }

  /** Python's `s.strip()`: the slice of `s` that remains once whitespace is
      removed from both ends. */
  function Strip(s: string): (r: string)
    ensures StripStart(s) + |r| <= |s|
    ensures r == s[StripStart(s)..StripStart(s) + |r|]
    ensures r == [] || (!IsSpace(r[0]) && !IsSpace(r[|r| - 1]))
  {
    var l := LStrip(s);
    var k := StripStart(s);
    var r := RStrip(l);
    assert l == s[k..];
    SliceOfSuffix(s, k, |r|);
    r
  }

  lemma SliceOfSuffix(s: string, k: nat, n: nat)
    requires k + n <= |s|
    ensures s[k..][..n] == s[k..k + n]
  {
  }

  /** What `strip` removes is whitespace only. */
  lemma StripRemovesOnlyBlanks(s: string)
    ensures forall i :: 0 <= i < StripStart(s) ==> IsSpace(s[i])
    ensures forall i :: StripStart(s) + |Strip(s)| <= i < |s| ==> IsSpace(s[i])
  {
    var l := LStrip(s);
    var k := StripStart(s);
    assert forall i :: 0 <= i < k ==> IsSpace(s[i]);
    assert Strip(s) == RStrip(l);
    TrailingBlanks(s, l, k);
  }

  lemma TrailingBlanks(s: string, l: string, k: nat)
    requires k <= |s| && l == s[k..]
    ensures forall i :: k + |RStrip(l)| <= i < |s| ==> IsSpace(s[i])
  {
    var n := |RStrip(l)|;
    forall i | k + n <= i < |s| ensures IsSpace(s[i]) {
      assert s[i] == l[i - k];
    }
  }

  /** A text without whitespace at either end is its own `strip`. */
  lemma StripTrimmed(s: string)
    requires s == [] || (!IsSpace(s[0]) && !IsSpace(s[|s| - 1]))
    ensures Strip(s) == s
  {
  }

  /** One leading blank before a trimmed text is all `strip` removes. */
  lemma StripLeadingBlank(t: string)
    requires t != [] && !IsSpace(t[0]) && !IsSpace(t[|t| - 1])
    ensures Strip([' '] + t) == t
  {
    var s := [' '] + t;
    assert s[1..] == t;
    assert LStrip(t) == t;
    assert LStrip(s) == t;
    assert RStrip(t) == t;
  }

  /** Stripping cannot make a pattern appear. */
  lemma StripKeepsAbsent(s: string, pat: string)
    requires !Contains(s, pat)
    ensures !Contains(Strip(s), pat)
  {
    var v := Strip(s);
    var k := StripStart(s);
    AbsentInSlice(s, pat, k, k + |v|);
  }

  /** A pattern absent from a string is absent from each of its slices. */
  lemma AbsentInSlice(s: string, pat: string, a: nat, b: nat)
    requires !Contains(s, pat) && a <= b <= |s|
    ensures !Contains(s[a..b], pat)
  {
    var v := s[a..b];
    forall j | 0 <= j <= |v| - |pat| ensures !OccursAt(v, pat, j) {
      assert !OccursAt(s, pat, a + j);
      forall k | j <= k < j + |pat| ensures v[k] == s[a + k] {
      }
      assert v[j..j + |pat|] == s[a + j..a + j + |pat|];
    }
  }

  /** The normalisation every completion reply goes through:
      `reply.lower().strip()`. */
  function Normalize(reply: string): (r: string)
    ensures r == [] || (!IsSpace(r[0]) && !IsSpace(r[|r| - 1]))
    ensures forall i :: 0 <= i < |r| ==> !IsUpper(r[i])
    ensures |r| <= |reply|
  {
    Strip(Lower(reply))
  }

  /** Normalising a normalised reply changes nothing. */
  lemma NormalizeIdempotent(reply: string)
    ensures Normalize(Normalize(reply)) == Normalize(reply)
  {
    var n := Normalize(reply);
    assert Lower(n) == n;
    StripTrimmed(n);
  }
}

=== FILE: style.dfy ===
/**
  The pure parts of `analyze_text_llm`: the punctuation summary, the
  passive-voice flag and the sentence-length statistics. Sentence splitting
  and part-of-speech tagging are inputs (a tagged sentence is a sequence of
  (word, tag) pairs); the emotion and the library lexical-diversity score
  are inputs too.
 */
module Style {
  import opened Base
  import opened Strings

  /** Python's `string.punctuation`, in its own order. */
  const Punctuation: string := "!\"#$%&'()*+,-./:;<=>?@[\\]^_`{|}~"

  /** `a` is `b` with some characters left out, the rest in order. */
  predicate IsSubsequence(a: string, b: string)
    decreases |b|
  {
    if |a| == 0 then true
    else if |b| == 0 then false
    else if a[|a| - 1] == b[|b| - 1] then IsSubsequence(a[..|a| - 1], b[..|b| - 1])
    else IsSubsequence(a, b[..|b| - 1])
  }

  /** The characters of `cs` that occur in `text`, in the order of `cs`. */
  function Present(cs: string, text: string): (ps: string)
    ensures forall c :: c in ps <==> c in cs && c in text
    ensures IsSubsequence(ps, cs)
    decreases |cs|
  {
    if |cs| == 0 then []
    else
      var before := Present(cs[..|cs| - 1], text);
      assert forall c :: c in cs <==> c in cs[..|cs| - 1] || c == cs[|cs| - 1];
      if cs[|cs| - 1] in text then
        var ps := before + [cs[|cs| - 1]];
        assert ps[..|ps| - 1] == before;
        ps
      else before
  }

  /** The punctuation characters whose count in `text` is positive, in
      `string.punctuation` order. */
  function PresentPunctuation(text: string): (ps: string)
    ensures forall c :: c in ps <==> c in Punctuation && c in text
    ensures IsSubsequence(ps, Punctuation)
  {
    Present(Punctuation, text)
  }

  /** Each character as a one-character string. */
  function Singletons(s: string): (parts: seq<string>)
    ensures |parts| == |s|
    ensures forall i :: 0 <= i < |s| ==> parts[i] == [s[i]]
  {
    seq(|s|, i requires 0 <= i < |s| => [s[i]])
  }

  const UsageLead := "moderate, with "
  const UsageTail := " being most frequent"

  /** The `punctuation_usage` entry: besides its fixed wording, it holds
      exactly the punctuation marks that occur in the text. */
  function PunctuationUsage(text: string): (u: string)
    ensures forall c :: c in u <==> c in UsageLead || c in UsageTail || (c in Punctuation && c in text)
  {
    UsageChars(PresentPunctuation(text));
    UsageLead + Join(Singletons(PresentPunctuation(text)), ", ") + UsageTail
  }

  lemma UsageChars(present: string)
    ensures forall c :: c in UsageLead + Join(Singletons(present), ", ") + UsageTail
                    <==> c in UsageLead || c in UsageTail || c in present
  {
    var list := Join(Singletons(present), ", ");
    JoinSingletonsChars(present, ", ");
    assert UsageLead[8] == ',' && UsageLead[9] == ' ';
    var u := UsageLead + list + UsageTail;
    assert forall c :: c in u <==> c in UsageLead || c in list || c in UsageTail;
  }

  /** Joining one-character strings: the result holds the characters and,
      once there are two, the separator's. */
  lemma {:induction false} JoinSingletonsChars(s: string, sep: string)
    ensures forall c :: c in Join(Singletons(s), sep) <==> c in s || (|s| >= 2 && c in sep)
    decreases |s|
  {
    if |s| >= 2 {
      var tail := s[1..];
      JoinSingletonsChars(tail, sep);
      assert Singletons(s) == [[s[0]]] + Singletons(tail);
      JoinCons([s[0]], Singletons(tail), sep);
      assert forall c :: c in s <==> c == s[0] || c in tail;
    } else if |s| == 1 {
      assert Singletons(s) == [[s[0]]];
    }
  }

  /** A text with no punctuation still gets the sentence, with an empty
      list in it. */
  lemma NoPunctuationUsage(text: string)
    requires forall c :: c in text ==> c !in Punctuation
    ensures PunctuationUsage(text) == "moderate, with  being most frequent"
  {
    NothingPresent(Punctuation, text);
    assert Singletons(PresentPunctuation(text)) == [];
    assert PunctuationUsage(text) == UsageLead + UsageTail;
    EmptyListWording();
  }

  lemma EmptyListWording()
    ensures UsageLead + UsageTail == "moderate, with  being most frequent"
  {
  }

  lemma {:induction false} NothingPresent(cs: string, text: string)
    requires forall c :: c in text ==> c !in cs
    ensures Present(cs, text) == []
    decreases |cs|
  {
    if |cs| > 0 {
      assert cs[|cs| - 1] in cs;
      assert forall c :: c in cs[..|cs| - 1] ==> c in cs;
      NothingPresent(cs[..|cs| - 1], text);
    }
  }

  type Tagged = seq<(string, string)>

  /** The check `is_passive` applies to each adjacent pair, as written: the
      first *tag* is compared with the words "was" and "were". */
  predicate PassivePairAsWritten(t: Tagged, i: int)
    requires 0 <= i < |t| - 1
  {
    t[i].1 in {"was", "were"} && t[i + 1].1 == "VBN"
  }

  /** The evidently intended check: the first *word* is "was" or "were" and
      the next token is tagged as a past participle. */
  predicate PassivePair(t: Tagged, i: int)
    requires 0 <= i < |t| - 1
  {
    t[i].0 in {"was", "were"} && t[i + 1].1 == "VBN"
  }

  predicate IsPassiveAsWritten(t: Tagged) {
    exists i :: 0 <= i < |t| - 1 && PassivePairAsWritten(t, i)
  }

  predicate HasPassivePair(t: Tagged) {
    exists i :: 0 <= i < |t| - 1 && PassivePair(t, i)
  }

  /** `is_passive`, corrected: the flag is set by any matching pair and
      never cleared. */
  method IsPassive(t: Tagged) returns (passive: bool)
    ensures passive <==> HasPassivePair(t)
  {
    passive := false;
    var i := 0;
    while i < |t| - 1
      invariant 0 <= i <= if |t| == 0 then 0 else |t| - 1
      invariant passive <==> exists k :: 0 <= k < i && PassivePair(t, k)
    {
      if PassivePair(t, i) {
        passive := true;
      }
      i := i + 1;
    }
  }

  /** `sum(is_passive(s) for s in sentences)` for a given pair check. */
  function CountPassive(sentences: seq<Tagged>, corrected: bool): (n: nat)
    ensures n <= |sentences|
    ensures n == 0 <==> forall k :: 0 <= k < |sentences| ==>
              !(if corrected then HasPassivePair(sentences[k]) else IsPassiveAsWritten(sentences[k]))
    decreases |sentences|
  {
    if |sentences| == 0 then 0
    else
      var last := sentences[|sentences| - 1];
      var before := CountPassive(sentences[..|sentences| - 1], corrected);
      before + (if (if corrected then HasPassivePair(last) else IsPassiveAsWritten(last)) then 1 else 0)
  }

  /** `passive_voice_usage`: "none" exactly when no sentence is passive. */
  function PassiveUsage(sentences: seq<Tagged>, corrected: bool): (u: string)
    ensures u in {"none", "some"}
    ensures u == "none" <==> forall k :: 0 <= k < |sentences| ==>
              !(if corrected then HasPassivePair(sentences[k]) else IsPassiveAsWritten(sentences[k]))
  {
    if CountPassive(sentences, corrected) == 0 then "none" else "some"
  }

  /** A part-of-speech tag in the Penn Treebank style the tagger produces:
      no lower-case letters. */
  predicate TagLike(tag: string) {
    forall k :: 0 <= k < |tag| ==> !('a' <= tag[k] <= 'z')
  }

  /** As written, a tagger whose tags are tag-like never makes a sentence
      passive, so `passive_voice_usage` is always "none". */
  lemma {:induction false} AsWrittenNeverPassive(sentences: seq<Tagged>)
    requires forall k, i :: 0 <= k < |sentences| && 0 <= i < |sentences[k]| ==> TagLike(sentences[k][i].1)
    ensures PassiveUsage(sentences, false) == "none"
  {
    forall k | 0 <= k < |sentences| ensures !IsPassiveAsWritten(sentences[k]) {
      var t := sentences[k];
      forall i | 0 <= i < |t| - 1 ensures !PassivePairAsWritten(t, i) {
        assert TagLike(t[i].1);
        assert "was"[0] == 'w' && "were"[0] == 'w';
      }
    }
  }

  /** "It was written." is passive once the word is checked, and not as
      written. */
  lemma PassiveCounterexample()
    ensures var s: Tagged := [("It", "PRP"), ("was", "VBD"), ("written", "VBN"), (".", ".")];
      PassiveUsage([s], false) == "none" && PassiveUsage([s], true) == "some"
  {
    var s: Tagged := [("It", "PRP"), ("was", "VBD"), ("written", "VBN"), (".", ".")];
    assert PassivePair(s, 1);
    assert !IsPassiveAsWritten(s) by {
      forall i | 0 <= i < |s| - 1 ensures !PassivePairAsWritten(s, i) {
        assert s[i].1[0] != 'w';
      }
    }
  }

  // ---- sentence-length statistics ----

  /** `len(s.split())`: the number of maximal runs of non-whitespace. */
  function WordCount(s: string): (n: nat)
    ensures n <= |s|
    ensures n == 0 <==> forall k :: 0 <= k < |s| ==> IsSpace(s[k])
    decreases |s|
  {
    if |s| == 0 then 0
    else
      var before := WordCount(s[..|s| - 1]);
      var starts := !IsSpace(s[|s| - 1]) && (|s| == 1 || IsSpace(s[|s| - 2]));
      if starts then before + 1
      else
        assert !IsSpace(s[|s| - 1]) ==> !IsSpace(s[..|s| - 1][|s| - 2]);
        before
  }

  /** The number of leading whitespace characters. */
  function LeadingSpaces(s: string): (i: nat)
    ensures i <= |s|
    ensures forall k :: 0 <= k < i ==> IsSpace(s[k])
    ensures i < |s| ==> !IsSpace(s[i])
  {
    if |s| == 0 || !IsSpace(s[0]) then 0 else 1 + LeadingSpaces(s[1..])
  }

  /** The number of leading non-whitespace characters. */
  function LeadingWord(s: string): (j: nat)
    ensures j <= |s|
    ensures forall k :: 0 <= k < j ==> !IsSpace(s[k])
    ensures j < |s| ==> IsSpace(s[j])
  {
    if |s| == 0 || IsSpace(s[0]) then 0 else 1 + LeadingWord(s[1..])
  }

  /** `s.split()` with no separator, read left to right: skip whitespace,
      take the next maximal run of non-whitespace, repeat. */
  function Words(s: string): (ws: seq<string>)
    ensures forall w :: w in ws ==> |w| > 0 && forall k :: 0 <= k < |w| ==> !IsSpace(w[k])
    decreases |s|
  {
    var i := LeadingSpaces(s);
    if i == |s| then []
    else
      var j := i + LeadingWord(s[i..]);
      [s[i..j]] + Words(s[j..])
  }

  /** A single run of non-whitespace is one word. */
  lemma {:induction false} OneWord(w: string)
    requires |w| > 0 && forall k :: 0 <= k < |w| ==> !IsSpace(w[k])
    ensures WordCount(w) == 1
    decreases |w|
  {
    if |w| > 1 {
      OneWord(w[..|w| - 1]);
    }
  }

  /** Appending one character adds a word exactly when it is the first
      character of one. */
  lemma WordCountSnoc(s: string, c: char)
    ensures WordCount(s + [c]) == WordCount(s) + (if !IsSpace(c) && (|s| == 0 || IsSpace(s[|s| - 1])) then 1 else 0)
  {
    var t := s + [c];
    assert t[..|t| - 1] == s;
  }

  /** Counts add up across a whitespace boundary. */
  lemma {:induction false} WordCountSplit(a: string, b: string)
    requires |a| == 0 || |b| == 0 || IsSpace(a[|a| - 1]) || IsSpace(b[0])
    ensures WordCount(a + b) == WordCount(a) + WordCount(b)
    decreases |b|
  {
    if |b| == 0 {
      assert a + b == a;
    } else {
      var init, c := b[..|b| - 1], b[|b| - 1];
      assert b == init + [c];
      assert a + b == (a + init) + [c];
      WordCountSnoc(a + init, c);
      WordCountSnoc(init, c);
      if |init| > 0 {
        assert init[0] == b[0];
        WordCountSplit(a, init);
        assert (a + init)[|a + init| - 1] == init[|init| - 1];
      } else {
        assert a + init == a;
      }
    }
  }

  /** Leading whitespace adds no word. */
  lemma DropLeadingSpaces(s: string)
    ensures WordCount(s) == WordCount(s[LeadingSpaces(s)..])
  {
    var i := LeadingSpaces(s);
    assert s == s[..i] + s[i..];
    assert forall k :: 0 <= k < i ==> IsSpace(s[..i][k]);
    WordCountSplit(s[..i], s[i..]);
  }

  /** A text that starts with a word counts that word and the rest. */
  lemma DropFirstWord(t: string)
    requires |t| > 0 && !IsSpace(t[0])
    ensures WordCount(t) == 1 + WordCount(t[LeadingWord(t)..])
  {
    var j := LeadingWord(t);
    assert t == t[..j] + t[j..];
    OneWord(t[..j]);
    WordCountSplit(t[..j], t[j..]);
  }

  /** `len(s.split())`: the count is the number of pieces the whitespace
      split produces. */
  lemma {:induction false} WordCountIsSplit(s: string)
    ensures WordCount(s) == |Words(s)|
    decreases |s|
  {
    var i := LeadingSpaces(s);
    DropLeadingSpaces(s);
    if i == |s| {
      assert s[i..] == [];
    } else {
      var t := s[i..];
      var j := i + LeadingWord(t);
      assert s[j..] == t[LeadingWord(t)..];
      DropFirstWord(t);
      WordCountIsSplit(s[j..]);
      WordsFirst(s, i, j);
    }
  }

  /** One unfolding of `Words` past its first word. */
  lemma WordsFirst(s: string, i: nat, j: nat)
    requires i == LeadingSpaces(s) < |s| && j == i + LeadingWord(s[i..])
    ensures |Words(s)| == 1 + |Words(s[j..])|
  {
  }

  function Sum(xs: seq<nat>): nat {
    if |xs| == 0 then 0 else Sum(xs[..|xs| - 1]) + xs[|xs| - 1]
  }

  function MinOf(xs: seq<nat>): (m: nat)
    requires |xs| > 0
    ensures m in xs && forall i :: 0 <= i < |xs| ==> m <= xs[i]
  {
    if |xs| == 1 then xs[0]
    else
      var rest := MinOf(xs[..|xs| - 1]);
      if xs[|xs| - 1] < rest then xs[|xs| - 1] else rest
  }

  function MaxOf(xs: seq<nat>): (m: nat)
    requires |xs| > 0
    ensures m in xs && forall i :: 0 <= i < |xs| ==> xs[i] <= m
  {
    if |xs| == 1 then xs[0]
    else
      var rest := MaxOf(xs[..|xs| - 1]);
      if xs[|xs| - 1] > rest then xs[|xs| - 1] else rest
  }

  lemma {:induction false} SumBounds(xs: seq<nat>, lo: nat, hi: nat)
    requires forall i :: 0 <= i < |xs| ==> lo <= xs[i] <= hi
    ensures |xs| * lo <= Sum(xs) <= |xs| * hi
    decreases |xs|
  {
    if |xs| > 0 {
      var n := |xs| - 1;
      SumBounds(xs[..n], lo, hi);
      assert Sum(xs) == Sum(xs[..n]) + xs[n];
      assert |xs| * lo == n * lo + lo;
      assert |xs| * hi == n * hi + hi;
    }
  }

  datatype LengthStats = LengthStats(shortest: nat, longest: nat, average: real)

  /** `sum / len` in Python's true division. */
  function Mean(total: nat, n: nat): (avg: real)
    requires n > 0
    ensures avg * n as real == total as real
  {
    total as real / n as real
  }

  /** A mean of values in `[lo, hi]` lies in `[lo, hi]`. */
  lemma MeanBetween(total: nat, n: nat, lo: nat, hi: nat)
    requires n > 0 && n * lo <= total <= n * hi
    ensures lo as real <= Mean(total, n) <= hi as real
  {
    var avg := Mean(total, n);
    assert (n * lo) as real == lo as real * n as real;
    assert (n * hi) as real == hi as real * n as real;
  }

  lemma StatsBounds(counts: seq<nat>, lo: nat, hi: nat)
    requires |counts| > 0
    requires forall i :: 0 <= i < |counts| ==> lo <= counts[i] <= hi
    ensures lo as real <= Mean(Sum(counts), |counts|) <= hi as real
  {
    SumBounds(counts, lo, hi);
    MeanBetween(Sum(counts), |counts|, lo, hi);
  }

  /** `min`, `max` and mean of a non-empty list of word counts. */
  function Summarize(counts: seq<nat>): (st: LengthStats)
    requires |counts| > 0
    ensures st.shortest in counts && st.longest in counts
    ensures forall k :: 0 <= k < |counts| ==> st.shortest <= counts[k] <= st.longest
    ensures st.shortest as real <= st.average <= st.longest as real
    ensures st.average == Mean(Sum(counts), |counts|)
  {
    var lo := MinOf(counts);
    var hi := MaxOf(counts);
    StatsBounds(counts, lo, hi);
    LengthStats(lo, hi, Mean(Sum(counts), |counts|))
  }

  /** The statistics, or the `ValueError` that `min` of an empty list
      raises. */
  function Stats(counts: seq<nat>): (r: Result<LengthStats>)
    ensures r.Err? <==> |counts| == 0
    ensures r.Err? ==> r.error.ValueError?
    ensures r.Ok? ==> r.value == Summarize(counts)
  {
    if |counts| == 0 then Err(ValueError("min() arg is an empty sequence"))
    else Ok(Summarize(counts))
  }

  /** `[len(s.split()) for s in sentences]`. */
  function WordCounts(sentences: seq<string>): (counts: seq<nat>)
    ensures |counts| == |sentences|
    ensures forall k :: 0 <= k < |sentences| ==> counts[k] == WordCount(sentences[k])
  {
    seq(|sentences|, k requires 0 <= k < |sentences| => WordCount(sentences[k]))
  }

  /** The `sentence_length_variation` figures. */
  function SentenceStats(sentences: seq<string>): Result<LengthStats> {
    Stats(WordCounts(sentences))
  }

  /** The style record `analyze_text_llm` returns, before its numbers are
      formatted. */
  datatype Report = Report(
    topEmotion: string,
    punctuationUsage: string,
    passiveVoiceUsage: string,
    lengths: LengthStats,
    lexicalDiversity: real)

  /** The tagging of each sentence, in order. */
  function TagAll(sentences: seq<string>, tag: string -> Tagged): (tagged: seq<Tagged>)
    ensures |tagged| == |sentences|
    ensures forall k :: 0 <= k < |sentences| ==> tagged[k] == tag(sentences[k])
  {
    seq(|sentences|, k requires 0 <= k < |sentences| => tag(sentences[k]))
  }

  /** `analyze_text_llm`, given the sentence split, the part-of-speech tagger
      applied to each sentence, the detected emotion and the library's MTLD
      score. The statistics fail on a text with no sentences. */
  function AnalyzeText(text: string, sentences: seq<string>, tag: string -> Tagged,
                       emotion: string, lexical: real, corrected: bool): (r: Result<Report>)
    ensures r.Err? <==> |sentences| == 0
    ensures r.Err? ==> r.error.ValueError?
    ensures r.Ok? ==>
      && r.value.punctuationUsage == PunctuationUsage(text)
      && r.value.passiveVoiceUsage == PassiveUsage(TagAll(sentences, tag), corrected)
      && Ok(r.value.lengths) == SentenceStats(sentences)
      && r.value.topEmotion == emotion && r.value.lexicalDiversity == lexical
  {
    match SentenceStats(sentences)
    case Err(e) => Err(e)
    case Ok(stats) => Ok(Report(emotion, PunctuationUsage(text), PassiveUsage(TagAll(sentences, tag), corrected), stats, lexical))
  }
}

=== FILE: wrapper.dfy ===
/**
  `OpenAIWrapper.chat_completion_with_retry`: the caller's messages and
  model, temperature 0, retried on every failure.
 */
module Wrapper {
  import opened Base
  import opened Strings
  import opened Oracle

  datatype Completed = Completed(answer: string, request: Request, attempts: nat)

  function ChatCompletionWithRetry(messages: seq<Message>, model: string, retries: int,
                                   script: seq<Reply>): (r: Completed)
    ensures r.request.messages == messages && r.request.model == Some(model)
    ensures r.request.temperature == Some(0.0)
    ensures r.attempts <= Budget(retries)
    ensures AllFail(script, Budget(retries)) ==> r.answer == "skipped" && r.attempts == Budget(retries)
    ensures forall k :: 0 <= k < Budget(retries) && FirstSuccessAt(script, k) ==>
              r.answer == Normalize(ReplyAt(script, k).text) && r.attempts == k + 1
  {
    var o := RetryOrFallback(script, retries, "skipped");
    Completed(o.result, Request(messages, Some(model), Some(0.0)), o.attempts)
  }

  /** The answer is "skipped" only when every attempt failed or the model
      itself answered "skipped" (in any letter case, with any surrounding
      whitespace). */
  lemma {:induction false} SkippedMeansFailureOrEcho(messages: seq<Message>, model: string, retries: int, script: seq<Reply>)
    requires ChatCompletionWithRetry(messages, model, retries, script).answer == "skipped"
    ensures AllFail(script, Budget(retries))
         || exists k :: 0 <= k < Budget(retries) && FirstSuccessAt(script, k)
                        && Normalize(ReplyAt(script, k).text) == "skipped"
  {
    FailOrFirstSuccess(script, Budget(retries));
  }
}
